=== FILE: README.md ===
# shareit booking and availability engine, in Dafny

shareit is a service for lending things. Users list items. Other users
book an item for a time window, and the owner approves or rejects each
booking. Once a booking has ended, the booker may comment on the item.
Users can also post requests for items that nobody offers yet.

The repository holds two generations of the application:

- **The older one** (`src/`) keeps users in an in-memory map store, and
  items, bookings, comments and requests in database tables. Its booking
  listings are unpaged.
- **The server** (`server/`) pages its listings with `from`/`size`.

This project models the core of both as pure functions over a database of
map-based tables, and proves the properties the code promises.

What each file models:

- `wrappers.dfy`: `Option` and `Result`. The error tags are the
  application's exceptions: NotFound, Forbidden, Validation, UnknownState,
  BadRequest, DataAlreadyExist, plus NullId for a `null` id that Java would
  unbox.
- `storage.dfy`: a table is a map from id to record plus an id counter.
  The in-memory store and the database tables share this shape.
- `domain.dfy`, `dto.dfy`: entities and DTOs, with nullable fields as
  `Option`.
- `paging.dfy`: `PageSettings` and the window a page request selects.
- `seqs.dfy`, `text.dfy`: filtering, stable sorting, grouping
  (`Collectors.groupingBy`), ASCII lower-casing and substring matching.
- `booking_repository.dfy`: what each booking query means.
- `*_mapper.dfy`: the five mappers.
- `booking_service.dfy`, `legacy_booking_service.dfy`: the server's and
  the older application's booking services.
- `item_service.dfy`: items, the grouping of bookings and comments by
  item, the last/next booking, search, and the comment gate.
- `request_service.dfy`: item requests.
- `in_memory_storage.dfy`, `legacy_user_service.dfy`: the older
  application's in-memory filters and its user service.
- `user_service.dfy`: the server's user service.

Time is an integer, and the clock (`now`) is a parameter. Here, a query
with no `ORDER BY` returns rows in id order; the source leaves that order
unspecified.

## Model

| member | source | states |
|---|---|---|
| Storage.Empty | src/main/java/ru/practicum/shareit/data/InMemoryDataStorage.java:16-18 | a new store is empty and its counter starts at 1 |
| Storage.Get | src/main/java/ru/practicum/shareit/data/InMemoryDataStorage.java:34-36 | a lookup finds a record exactly when its id is stored, and returns that record; otherwise it gives nothing (Java's `null`) |
| Storage.Create | src/main/java/ru/practicum/shareit/data/InMemoryDataStorage.java:24-28 | the record gets the counter's id and is readable under it; every other id reads as before; the counter grows by one; ids stay below the counter |
| Storage.GetAfterCreate | src/main/java/ru/practicum/shareit/data/InMemoryDataStorage.java:24-36 | reading the id `create` assigned returns the created record |
| Storage.Update | src/main/java/ru/practicum/shareit/data/InMemoryDataStorage.java:50-54 | an upsert: the record is stored under its own id and returned; every other id and the counter are unchanged |
| Storage.UpdateIssuedKeepsIds | src/main/java/ru/practicum/shareit/data/InMemoryDataStorage.java:50-54 | upserting under an id already issued keeps every stored id below the counter |
| Storage.Delete | src/main/java/ru/practicum/shareit/data/InMemoryDataStorage.java:60-62 | the id is gone; every other id reads as before; the counter is unchanged |
| Storage.Scan | src/main/java/ru/practicum/shareit/data/InMemoryDataStorage.java:42-44 | `getAll` lists exactly the stored values, one entry per stored id |
| Storage.IdsNeverReused | src/main/java/ru/practicum/shareit/data/InMemoryDataStorage.java:18-28 | over any history of creates and deletes, the ids `create` hands out strictly increase, none of them was in the store before, and all stay below the counter |
| Paging.PageSettings | server/src/main/java/ru/practicum/shareit/util/PageSettings.java:8 | for from >= 0 and size >= 1: the page length is `size`, the sort passes through, and the page holds position `from`. The offset page*size equals from - from % size; it is exact when size divides from; the page index is 0 when from < size |
| Paging.Slice | server/src/main/java/ru/practicum/shareit/util/PageSettings.java:8 | the rows a page request selects: the window of `size` rows starting at page*size, cut off at the end of the list |
| BookingRepository.Classify | src/main/java/ru/practicum/shareit/booking/BookingRepository.java:19-45 | every search status except UNSUPPORTED_STATUS has a query condition |
| BookingRepository.ClassifyMeetsSearch | src/main/java/ru/practicum/shareit/booking/BookingRepository.java:19-45 | the query a status selects holds exactly for the bookings that meet that status. CURRENT is start < now < end, strictly; PAST is end < now; FUTURE is start > now; WAITING and REJECTED compare the status; ALL holds always |
| BookingRepository.FindAll | src/main/java/ru/practicum/shareit/booking/BookingRepository.java:19-55 | an unpaged query returns exactly the stored bookings of the booker (or of the item's owner) that meet the condition, sorted by start descending; the result is a permutation of the matching stored rows, so each appears exactly once |
| BookingRepository.FindPage | src/main/java/ru/practicum/shareit/booking/BookingRepository.java:19-55 | a paged query returns at most `size` of those bookings, sorted by start descending |
| BookingRepository.PageOfNewestFirst | src/main/java/ru/practicum/shareit/booking/BookingRepository.java:19-55 | a page of a list sorted by start descending is itself sorted that way and holds only bookings of the list |
| BookingRepository.FindEndedWithStatus | src/main/java/ru/practicum/shareit/booking/BookingRepository.java:47-48 | the comment-gate query returns exactly the stored bookings with that booker, that item, end before the date and that status, newest first, each matching row exactly once (a permutation of the matching rows) |
| BookingRepository.FindApprovedForItems | src/main/java/ru/practicum/shareit/booking/BookingRepository.java:50-53 | `findAllByItemIdIn` returns exactly the approved stored bookings whose item id is in the list |
| BookingMapper.ToBooking | server/src/main/java/ru/practicum/shareit/booking/BookingMapper.java:28-37 | attaches exactly the given booker and item; turning the result back into a brief DTO gives the request, with the item's and booker's ids |
| BookingMapper.ToBookingDto | server/src/main/java/ru/practicum/shareit/booking/BookingMapper.java:44-53 | all six fields are copied unchanged |
| BookingMapper.ToBriefBookingDto | server/src/main/java/ru/practicum/shareit/booking/BookingMapper.java:60-69 | bookerId and itemId are the ids of the booker and the item; id, start, end and status are copied |
| BookingMapper.ToBookingDtoList | server/src/main/java/ru/practicum/shareit/booking/BookingMapper.java:76-81 | keeps the length and order and converts each element |
| BookingMapper.ToBookingDtoInjective | server/src/main/java/ru/practicum/shareit/booking/BookingMapper.java:44-53 | bookings with equal DTOs are equal: the DTO loses nothing |
| BookingMapper.BriefRoundTrip | server/src/main/java/ru/practicum/shareit/booking/BookingMapper.java:28-69 | brief DTO -> booking -> brief DTO agrees with the request on id, start, end and status, with the item's and booker's ids |
| BookingMapper.BriefThenBack | server/src/main/java/ru/practicum/shareit/booking/BookingMapper.java:28-69 | booking -> brief DTO -> booking, with the same booker and item, gives back the booking |
| BookingMapper.ToBookingDtoListAppend | server/src/main/java/ru/practicum/shareit/booking/BookingMapper.java:76-81 | converting a concatenation is concatenating the conversions |
| CommentMapper.ToComment | server/src/main/java/ru/practicum/shareit/item/CommentMapper.java:27-41 | a `null` DTO gives a blank comment. Otherwise the text comes from the DTO; author, item and created come from the arguments; the DTO's id and authorName are ignored |
| CommentMapper.ToCommentDto | server/src/main/java/ru/practicum/shareit/item/CommentMapper.java:48-57 | `null` gives an empty DTO; otherwise id, text and created are copied and authorName is the author's name |
| CommentMapper.ToCommentDtoList | server/src/main/java/ru/practicum/shareit/item/CommentMapper.java:64-70 | `null` gives an empty list; otherwise the length and order are kept and each element is converted |
| CommentMapper.CommentRoundTrip | server/src/main/java/ru/practicum/shareit/item/CommentMapper.java:27-57 | DTO -> comment -> DTO, once the comment is saved, keeps the text; it gives the saved id, the author's name and the creation time |
| ItemMapper.ToItemDto | src/main/java/ru/practicum/shareit/item/ItemMapper.java:21-31 | `null` gives an empty DTO; otherwise id, name, description and available are copied and ownerId is the owner's id |
| ItemMapper.ToItem | src/main/java/ru/practicum/shareit/item/ItemMapper.java:38-47 | `null` gives a blank item; otherwise the four fields are copied and owner and request stay unset |
| ItemMapper.ToItemsDto | src/main/java/ru/practicum/shareit/item/ItemMapper.java:54-59 | `null` gives an empty list; otherwise the length and order are kept |
| ItemMapper.ItemRoundTrip | src/main/java/ru/practicum/shareit/item/ItemMapper.java:21-47 | DTO -> item, given an owner, -> DTO agrees with the original on the four copied fields, with ownerId the owner's id |
| ItemMapper.ItemBackAndForth | src/main/java/ru/practicum/shareit/item/ItemMapper.java:21-47 | item -> DTO -> item loses only the owner and the request |
| UserMapper.ToUserDto | server/src/main/java/ru/practicum/shareit/user/UserMapper.java:22-28 | id, name and email are copied, and `toUser` undoes it |
| UserMapper.ToUser | server/src/main/java/ru/practicum/shareit/user/UserMapper.java:35-41 | id, name and email are copied |
| UserMapper.ToUserDtoList | server/src/main/java/ru/practicum/shareit/user/UserMapper.java:48-53 | `null` gives an empty list; otherwise the length and order are kept |
| UserMapper.UserRoundTrips | server/src/main/java/ru/practicum/shareit/user/UserMapper.java:22-41 | the two mappers are inverse in both directions |
| RequestMapper.ToItemRequest | server/src/main/java/ru/practicum/shareit/request/RequestMapper.java:17-25 | `null` gives a blank request; otherwise id, description and created are copied and the requester is never set |
| RequestMapper.ToItemRequestDto | server/src/main/java/ru/practicum/shareit/request/RequestMapper.java:27-35 | `null` gives an empty DTO; otherwise id, description and created are copied and the items stay unset |
| RequestMapper.WithItems | server/src/main/java/ru/practicum/shareit/request/RequestMapper.java:43-46 | a listed request's DTO carries the request's own fields and the item DTOs grouped under its id |
| RequestMapper.ToItemRequestDtoList | server/src/main/java/ru/practicum/shareit/request/RequestMapper.java:37-49 | keeps the length and order of the requests; each DTO carries its own request's group of items |
| RequestMapper.RequestRoundTrip | server/src/main/java/ru/practicum/shareit/request/RequestMapper.java:17-35 | DTO -> request -> DTO keeps id, description and created |
| BookingService.CreateAsWritten | server/src/main/java/ru/practicum/shareit/booking/BookingServiceImpl.java:43-66 | the code as written: succeeds exactly when every check passes, and saves the booking with the status the request carried |
| BookingService.CreateAsWrittenStoresApproved | server/src/main/java/ru/practicum/shareit/booking/BookingServiceImpl.java:43-66 | a concrete request with status APPROVED is stored approved by the code as written, and as waiting by `Create` |
| BookingService.Create | server/src/main/java/ru/practicum/shareit/booking/BookingServiceImpl.java:43-66 | NotFound for the booker, then for the item, before any other check. Then Forbidden when the booker owns the item; Validation for an unavailable item, whatever the window; Validation when end <= start. On success exactly one waiting booking is saved under the next id, and nothing else changes |
| BookingService.Approve | server/src/main/java/ru/practicum/shareit/booking/BookingServiceImpl.java:70-91 | NotFound for an unknown booking, Forbidden for anyone but the item's owner, Validation unless the booking is WAITING, and it succeeds iff all pass. The new status is APPROVED iff `approved`, else REJECTED; all other fields, bookings and tables are unchanged |
| BookingService.ApproveTwiceFails | server/src/main/java/ru/practicum/shareit/booking/BookingServiceImpl.java:77-86 | after a successful decision, a second `approve` fails with Validation |
| BookingService.Get | server/src/main/java/ru/practicum/shareit/booking/BookingServiceImpl.java:94-99 | NotFound for the booking, then for the user. It succeeds iff the user's id is the booker's or the item owner's, and shows the booking; any other user gets Forbidden |
| BookingService.GetOnlyForParticipants | server/src/main/java/ru/practicum/shareit/booking/BookingServiceImpl.java:195-204 | when users carry their own keys, `get` succeeds exactly for the booker and the owner of the booked item |
| BookingService.ListBookings | server/src/main/java/ru/practicum/shareit/booking/BookingServiceImpl.java:101-178 | NotFound for an unknown user, UnknownState for an unsupported status; otherwise at most `size` DTOs, newest first, each of a stored booking of the user that meets the status |
| BookingService.GetByBookerId | server/src/main/java/ru/practicum/shareit/booking/BookingServiceImpl.java:101-138 | succeeds iff the user exists and the status is supported; every listed booking was made by that user |
| BookingService.GetByOwnerId | server/src/main/java/ru/practicum/shareit/booking/BookingServiceImpl.java:140-178 | succeeds iff the user exists and the status is supported; every listed booking is of an item that user owns |
| BookingService.CreateKeepsWellFormed | server/src/main/java/ru/practicum/shareit/booking/BookingServiceImpl.java:49-63 | `create` keeps every stored booking ending after it starts and not booked by its item's owner |
| BookingService.ApproveKeepsWellFormed | server/src/main/java/ru/practicum/shareit/booking/BookingServiceImpl.java:81-86 | deciding a booking keeps every stored booking well formed |
| LegacyBookingService.Approve | src/main/java/ru/practicum/shareit/booking/BookingServiceImpl.java:61-78 | NotFound, then Forbidden for a non-owner, then Validation only for APPROVED or REJECTED bookings; a WAITING or CANCELED booking is decided, APPROVED iff `approved` |
| LegacyBookingService.ApproveVariantsDiffer | src/main/java/ru/practicum/shareit/booking/BookingServiceImpl.java:68-70 | the two `approve` variants give different outcomes exactly when the owner decides a CANCELED booking |
| LegacyBookingService.ApproveTwiceFails | src/main/java/ru/practicum/shareit/booking/BookingServiceImpl.java:68-76 | a booking decided by the older variant cannot be decided again |
| LegacyBookingService.ListBookings | src/main/java/ru/practicum/shareit/booking/BookingServiceImpl.java:91-166 | NotFound for an unknown user, UnknownState for an unsupported status; otherwise every stored booking of the user that meets the status is listed, newest first, and nothing else; the listing has exactly as many entries as there are matching stored rows, so each is listed once |
| LegacyBookingService.ListsEachOnce | src/main/java/ru/practicum/shareit/booking/BookingServiceImpl.java:91-166 | the query chosen for a supported status returns as many bookings as there are stored rows of the user meeting the status |
| LegacyBookingService.PagedIsWindowOfUnpaged | server/src/main/java/ru/practicum/shareit/booking/BookingServiceImpl.java:101-178 | the server's paged listing fails exactly when the older listing does, with the same error; otherwise it is the page window of the older listing |
| ItemService.CreateItem | src/main/java/ru/practicum/shareit/item/ItemServiceImpl.java:45-50 | NotFound for an unknown owner; otherwise the item is stored under the next id, with that owner and no request, and nothing else changes |
| ItemService.Patch | src/main/java/ru/practicum/shareit/item/ItemServiceImpl.java:54-74 | each field the request sets overwrites; each `null` field keeps the stored value; id, owner and request never change |
| ItemService.Update | src/main/java/ru/practicum/shareit/item/ItemServiceImpl.java:54-74 | NotFound for an unknown item, Forbidden for anyone but its owner; otherwise only that item changes, to its patched form |
| ItemService.UpdateTwice | src/main/java/ru/practicum/shareit/item/ItemServiceImpl.java:54-74 | repeating a successful update changes nothing more and gives the same reply |
| ItemService.UnavailableItemCannotBeBooked | src/main/java/ru/practicum/shareit/item/ItemServiceImpl.java:54-74 | after the owner marks an item unavailable, any other user's booking of it fails with Validation |
| ItemService.Delete | src/main/java/ru/practicum/shareit/item/ItemServiceImpl.java:98-100 | EmptyResult exactly when no item has that id, as Spring Data JPA 2 `deleteById` throws; otherwise the item is gone and nothing else changes |
| ItemService.ApprovedBookingsOf | src/main/java/ru/practicum/shareit/booking/BookingRepository.java:50-53 | the reference for one group: exactly the approved stored bookings of that item |
| ItemService.BookingsByItemIds | src/main/java/ru/practicum/shareit/item/ItemServiceImpl.java:157-170 | only listed item ids have a group, and no group is empty; each listed item's group is exactly its approved bookings, in table order |
| ItemService.CommentsOf | src/main/java/ru/practicum/shareit/item/ItemServiceImpl.java:203-216 | the reference for one group: exactly the stored comments of that item |
| ItemService.CommentsByItemIds | src/main/java/ru/practicum/shareit/item/ItemServiceImpl.java:203-216 | only listed item ids have a group, and no group is empty; each listed item's group is exactly its comments, in table order |
| ItemService.Latest | src/main/java/ru/practicum/shareit/item/ItemServiceImpl.java:172-185 | absent iff no booking started before now; otherwise a booking of the group with start < now and the greatest such start |
| ItemService.Earliest | src/main/java/ru/practicum/shareit/item/ItemServiceImpl.java:187-200 | absent iff no booking starts after now; otherwise a booking of the group with start > now and the least such start |
| ItemService.StartingNowIsNeither | src/main/java/ru/practicum/shareit/item/ItemServiceImpl.java:172-200 | a booking that starts exactly now is neither the last nor the next |
| ItemService.LastBooking | src/main/java/ru/practicum/shareit/item/ItemServiceImpl.java:172-185 | the last booking is the latest started booking of the item's own group |
| ItemService.NextBooking | src/main/java/ru/practicum/shareit/item/ItemServiceImpl.java:187-200 | the next booking is the earliest upcoming booking of the item's own group |
| ItemService.GetItem | src/main/java/ru/practicum/shareit/item/ItemServiceImpl.java:78-94 | NotFound for an unknown item. Everyone gets the item's fields and all its comments. Only the owner gets last and next, which are its latest started and earliest upcoming approved bookings; others get neither |
| ItemService.FindByOwner | src/main/java/ru/practicum/shareit/item/ItemRepository.java:15 | exactly the stored items of the owner, from any store; the in-memory `getByOwner` is the same filter |
| ItemService.GetByOwner | src/main/java/ru/practicum/shareit/item/ItemServiceImpl.java:104-128 | one DTO per owned item, in repository order. Each DTO shows that item's own latest started and earliest upcoming approved bookings, and its own comments (none when it has none) |
| ItemService.OwnerEntryIsView | src/main/java/ru/practicum/shareit/item/ItemServiceImpl.java:111-126 | the loop body, reading the shared groups, gives the same DTO as reading the item's own bookings and comments directly |
| ItemService.EntriesAreViews | src/main/java/ru/practicum/shareit/item/ItemServiceImpl.java:104-128 | given groups that hold each listed item's own approved bookings and comments, every entry of the owner's list equals that item's view read straight from the tables |
| ItemService.FindContainingText | src/main/java/ru/practicum/shareit/item/ItemRepository.java:17-23 | exactly the available stored items whose lower-cased name or description contains the lower-cased text |
| ItemService.Search | src/main/java/ru/practicum/shareit/item/ItemServiceImpl.java:132-138 | a `null` text, or one of `Character.isWhitespace` characters only, gives nothing. Otherwise every DTO is the DTO of a stored available item whose name or description contains the text, and every such item's DTO is listed |
| ItemService.SearchText | src/main/java/ru/practicum/shareit/item/ItemServiceImpl.java:136-137 | for a text that is not blank: each DTO is of a stored found item, so available and matching, and every found item's DTO is listed |
| ItemService.SearchedDtos | src/main/java/ru/practicum/shareit/item/ItemServiceImpl.java:132-138 | the DTOs of the found items are sound (available and matching) and complete |
| ItemService.FoundDtosMatch | src/main/java/ru/practicum/shareit/item/ItemServiceImpl.java:132-138 | every DTO made from found items shows an available item whose name or description contains the text |
| ItemService.FoundDtosStored | src/main/java/ru/practicum/shareit/item/ItemServiceImpl.java:136-137 | each DTO made from found stored items is the DTO of one of them |
| ItemService.CreateComment | src/main/java/ru/practicum/shareit/item/ItemServiceImpl.java:142-154 | NotFound for the user, then the item; BadRequest iff the user has no approved booking of the item that ended before now. Otherwise the comment is saved under the next id, with the request's text, that item, that author and `now` |
| ItemService.GateIsQuery | src/main/java/ru/practicum/shareit/item/ItemServiceImpl.java:145-152 | the gate query finds a booking exactly when the user may comment |
| InMemoryStorage.SearchItems | src/main/java/ru/practicum/shareit/item/InMemoryItemStorage.java:35-45 | exactly the available stored items whose name or description matches the text; the caller's id plays no part |
| InMemoryStorage.MatchesIsLike | src/main/java/ru/practicum/shareit/item/InMemoryItemStorage.java:43-45 | every in-memory match is a database `LIKE` match, and on a single-line field the two agree |
| InMemoryStorage.SearchesAgree | src/main/java/ru/practicum/shareit/item/InMemoryItemStorage.java:35-39 | whatever the in-memory search finds, the database search finds too; on single-line names and descriptions they find the same items |
| InMemoryStorage.LowerKeepsLines | src/main/java/ru/practicum/shareit/item/InMemoryItemStorage.java:44 | lower-casing neither adds nor removes line terminators |
| InMemoryStorage.UsersWith | src/main/java/ru/practicum/shareit/user/InMemoryUserStorage.java:21-37 | `getByName` and `getByEmail`: exactly the stored users whose name, or email, is the queried text |
| LegacyUserService.Validate | src/main/java/ru/practicum/shareit/user/UserServiceImpl.java:73-84 | DataAlreadyExist iff some stored user with a different id has the same name or the same email |
| LegacyUserService.ValidateFindsClashes | src/main/java/ru/practicum/shareit/user/UserServiceImpl.java:74-79 | the two lookups, with the user's own id filtered out, find something exactly when a clashing user is stored |
| LegacyUserService.CreateAsWritten | src/main/java/ru/practicum/shareit/user/UserServiceImpl.java:28-31 | the code as written: refuses a clash with users of a different id than the request's, then stores the user under a fresh id |
| LegacyUserService.CreateAsWrittenDuplicates | src/main/java/ru/practicum/shareit/user/UserServiceImpl.java:28-31 | a concrete store and request for which the code as written stores a second user with the same name and email; `Create` refuses it |
| LegacyUserService.Create | src/main/java/ru/practicum/shareit/user/UserServiceImpl.java:28-31 | DataAlreadyExist iff a stored user has the same name or email; otherwise the user is stored under the counter's id |
| LegacyUserService.CreateKeepsValid | src/main/java/ru/practicum/shareit/user/UserServiceImpl.java:28-31 | on a valid store, `create` of a user whose name and email no stored user has succeeds and keeps names and emails unique, every user under its own id, and ids below the counter |
| LegacyUserService.AddKeepsValid | src/main/java/ru/practicum/shareit/user/UserServiceImpl.java:28-31 | storing a user under the counter's id, sharing no name or email with a stored user, keeps the store valid |
| LegacyUserService.GetUser | src/main/java/ru/practicum/shareit/user/UserServiceImpl.java:37-43 | the stored user, or NotFound for an absent id |
| LegacyUserService.Fill | src/main/java/ru/practicum/shareit/user/UserServiceImpl.java:86-94 | the id is the stored user's; a `null` name or email is taken from the stored user, and a set one is kept |
| LegacyUserService.Update | src/main/java/ru/practicum/shareit/user/UserServiceImpl.java:57-62 | NotFound for an absent id, before any change; DataAlreadyExist when the filled user clashes with another. Otherwise the filled user replaces the stored one under its id |
| LegacyUserService.UpdateKeepsValid | src/main/java/ru/practicum/shareit/user/UserServiceImpl.java:57-62 | on a valid store, `update` of a stored user that, filled in, clashes with no other user succeeds and keeps names and emails unique and every user under its own id |
| LegacyUserService.ReplaceKeepsValid | src/main/java/ru/practicum/shareit/user/UserServiceImpl.java:57-62 | replacing a user by one that clashes with no other user keeps the store valid |
| LegacyUserService.ResaveUnchanged | src/main/java/ru/practicum/shareit/user/UserServiceImpl.java:74-79 | in a valid store, re-saving a user unchanged passes the uniqueness check |
| LegacyUserService.DeleteUser | src/main/java/ru/practicum/shareit/user/UserServiceImpl.java:68-71 | NotFound for an absent id; otherwise that user is removed and every other user stays |
| UserService.CreateUser | server/src/main/java/ru/practicum/shareit/user/UserServiceImpl.java:25-28 | the user is saved under the next id; the reply is the request with that id, and nothing else changes |
| UserService.GetUser | server/src/main/java/ru/practicum/shareit/user/UserServiceImpl.java:31-35 | NotFound for an absent id; otherwise the stored user |
| UserService.GetAll | server/src/main/java/ru/practicum/shareit/user/UserServiceImpl.java:38-41 | one DTO per stored user; every stored user is shown and nothing else |
| UserService.Merge | server/src/main/java/ru/practicum/shareit/user/UserServiceImpl.java:49-55 | the id never changes; the name is overwritten iff the request has one; the email is overwritten iff the request has one that differs |
| UserService.MergeOverwritesSetFields | server/src/main/java/ru/practicum/shareit/user/UserServiceImpl.java:53-55 | the comparison with the current email changes nothing: the email ends up as the request's whenever the request sets one |
| UserService.Update | server/src/main/java/ru/practicum/shareit/user/UserServiceImpl.java:45-58 | NotFound for an absent id, with nothing changed; otherwise only that user changes, to its merged form, keeping its id |
| UserService.DeleteUser | server/src/main/java/ru/practicum/shareit/user/UserServiceImpl.java:62-64 | EmptyResult exactly when no user has that id, as Spring Data JPA 2 `deleteById` throws; otherwise the user is gone and nothing else changes |
| RequestService.CreateRequest | src/main/java/ru/practicum/shareit/request/RequestServiceImpl.java:29-35 | NotFound for an unknown requester; otherwise the request is saved under the next id, with that requester and created = now |
| RequestService.ItemsAnswering | src/main/java/ru/practicum/shareit/request/RequestServiceImpl.java:69-82 | the reference for one group: exactly the stored items that answer that request |
| RequestService.ItemsByRequestIds | src/main/java/ru/practicum/shareit/request/RequestServiceImpl.java:69-82 | only listed request ids have a group, and no group is empty; each listed request's group is exactly the items answering it, in table order |
| RequestService.FindByRequester | src/main/java/ru/practicum/shareit/request/RequestRepository.java:11-15 | the page is the window of the `Pageable` over all the stored requests by (or not by) the requester, sorted by created ascending: `size` of them, or those left after the offset when fewer remain, sorted, each matching |
| RequestService.SliceKeepsOrder | src/main/java/ru/practicum/shareit/request/RequestRepository.java:15 | a page of a sorted list is sorted and holds only elements of the list |
| RequestService.ListRequests | src/main/java/ru/practicum/shareit/request/RequestServiceImpl.java:38-67 | NotFound for an unknown requester, before any request lookup; otherwise one DTO per request of the page, each with its own answering items |
| RequestService.ListingIsWindow | src/main/java/ru/practicum/shareit/request/RequestServiceImpl.java:38-67 | a listing is the page at `from / size` of all the matching requests in creation order, each shown with its items |
| RequestService.GetAllByRequesterId | src/main/java/ru/practicum/shareit/request/RequestServiceImpl.java:38-45 | succeeds iff the requester exists; then the reply is the page at `from / size` of all the requester's requests oldest first, each with its items |
| RequestService.GetAllOtherUsers | src/main/java/ru/practicum/shareit/request/RequestServiceImpl.java:60-67 | succeeds iff the requester exists; then the reply is the page at `from / size` of all other users' requests oldest first, each with its items |
| RequestService.ListedRequests | src/main/java/ru/practicum/shareit/request/RequestServiceImpl.java:38-67 | every listed DTO shows a stored request of the right requester, with the items answering it |
| RequestService.GetRequest | src/main/java/ru/practicum/shareit/request/RequestServiceImpl.java:48-57 | NotFound for the user, then for the request; otherwise the request with exactly the items answering it |
| Seqs.GroupBy | src/main/java/ru/practicum/shareit/item/ItemServiceImpl.java:157-170 | `groupingBy`: each key's group is the elements with that key, in input order; no group is empty; every element's key has a group |
| Seqs.FilterFilter | src/main/java/ru/practicum/shareit/item/ItemServiceImpl.java:157-170 | filtering twice is filtering once by both conditions |
| Seqs.SortBy | src/main/java/ru/practicum/shareit/booking/BookingRepository.java:55 | a sort gives a sorted permutation of the input |
| Text.Lower | src/main/java/ru/practicum/shareit/item/InMemoryItemStorage.java:44 | lower-casing keeps the length and folds each ASCII capital letter to its lower case |
| Text.LowerIdempotent | src/main/java/ru/practicum/shareit/item/InMemoryItemStorage.java:44 | lower-casing twice is lower-casing once |
| Text.MatchAroundIsContains | src/main/java/ru/practicum/shareit/item/InMemoryItemStorage.java:44 | a match of `(.*)text(.*)` is an occurrence of the text with no line terminator before or after it in the string, so always a substring occurrence; in a string without line terminators the two are the same |

## Left out

- The HTTP controllers, the gateway and its clients, and bean validation. The only trace of them is the `from >= 0 && size >= 1` precondition of the paged functions.
- Transactions, dirty checking and concurrency. Updates of managed entities are written back with `Storage.Put`, and simultaneous `approve` calls are left to the database.
- A booking and a comment hold copies of their item, booker or author, where JPA `@ManyToOne` holds references to the rows. When a user or item is changed after a booking or comment refers to it, `BookingService.Get`, the booking listings, `CommentDto.authorName` in `ItemService.GetItem` and `ItemService.GetByOwner` show the old copy, where the source shows the current row. Deleting an item or user that bookings or comments refer to succeeds here, leaving stale copies, where the database's foreign keys refuse it.
- JPA `save` of an entity whose id the client supplied (a merge) is not modelled: saving always assigns the next id.
- ItemService.CreateComment: the older application's `CommentMapper`, `BookingMapper` and `RequestMapper` are not part of this model; the server's mappers stand in for them. The older `toComment` copies the request's comment id into the comment, as its test asserts, so a client-supplied comment id reaches `save` as a merge; here `CommentMapper.ToComment` drops that id and the comment is always saved under the next id.
- The order of unsorted queries, and of `HashMap` iteration, is unspecified in the source. The model uses id order, so `getAll`, `getByOwner`, comment groups and search results come in id order.
- The clock: `LocalDateTime.now()` is read per element or per query in the source; here it is one `now` argument.
- The native `GROUP BY` comment queries in the comment repositories, whose result is ill-defined.
- Locale-aware lower-casing and full regular-expression semantics are left out. Case folding is ASCII. An in-memory query is read as a literal without metacharacters, and a `LIKE` pattern as text without `%` or `_`.
- The in-memory `getByOwner` (src/main/java/ru/practicum/shareit/item/InMemoryItemStorage.java:24-29) is not modelled apart from the database query: `ItemService.FindByOwner` takes any store. An item without an owner is skipped there, where the in-memory filter would throw a `NullPointerException`.
- InMemoryStorage.UsersWith: treats `name.matches(storedName)` and `email.matches(storedEmail)` as string equality. In the source the stored value is the regular expression, so the two agree only for stored text without metacharacters. Stored "a+b@x.com" does not match the query "a+b@x.com"; stored "a.b@x.com" also matches "axb@x.com"; a stored value with an unbalanced `(` makes every later lookup throw `PatternSyntaxException`. A `null` query or stored field matches nothing here instead of throwing.
- LegacyUserService.Validate: clash detection is that of `UsersWith`, exact only for names and emails without regular-expression metacharacters.
- LegacyUserService.CreateKeepsValid: uniqueness is kept under the literal reading of `UsersWith`. In the source two users with the email "a+b@x.com" both pass `validate`.
- LegacyUserService.UpdateKeepsValid: the same restriction as `CreateKeepsValid`.
- ItemService.Update: a stored item without an owner is treated as owned by nobody, so `update` gives Forbidden where the source would throw a `NullPointerException`.
- ItemService.Search: a `null` `available` is treated as unavailable rather than as a `NullPointerException`.
- BookingService.Create: an item with a `null` `available` is refused with Validation rather than a `NullPointerException`. A request with a `null` item id fails with NullId.
- ItemService.Latest: which of several bookings with the same greatest start is chosen is not stated; the contract only says its start is the greatest.
- ItemService.Earliest: the same as `Latest`, for the least start.
- RequestService.FindByRequester: a request without a creation time sorts as if created at time 0.
- RequestService.GetRequest: the items are grouped under the stored request's own id. A request stored under a key different from its id is not given the items of that key.
- UserService.Update: the database's unique constraint on emails is not modelled, so an update to a taken email succeeds here.
- UserService.CreateUser: the same unique constraint is not modelled for `create`.
- LegacyUserService.Update: the stored user is written under its own id. When that id differs from the key it was read under, the model states only the write under the id.
- LegacyUserService.DeleteUser: the removal is stated only for stores whose users sit under their own ids.
- The older application's `create` and `get` of bookings perform the same checks, in the same order, as the server's, and build the booking with a `BookingMapper` that is not part of this model; the server's `BookingMapper` stands in for it. `BookingService.CreateAsWritten` models both `create`s as written, saving the status the request carries (the older `BriefBookingDto` also has a settable `status`), and `BookingService.Create` is the intended behaviour of both. `BookingService.Get` models both `get`s.
- The older application's item DTO has no request id. `ItemMapper` follows it and always leaves the request id unset.
- `ItemMapper.toItemDtoList` is called by the older application's `search` and request service and by the server's request mapper, but no file of the source defines it. `ItemMapper.ToItemsDto` (the older application's `toItemsDto`) stands in for it, with a `null` list giving `[]`. This decides what a request nobody answered shows: `RequestService.GetRequest` and the request listings give it an empty item list, where the source's result depends on the missing method.
- The older application's item DTO declares no `comments`, `lastBooking` or `nextBooking` fields, yet its item service sets them. `Dto.ItemDto` carries them, as the service code requires.
- JSON serialisation, logging, message texts and the exception classes beyond their use as error tags.

## Findings

| source | as written | input that shows it | evidently intended | confidence | as-written member | corrected member |
|---|---|---|---|---|---|---|
| server/src/main/java/ru/practicum/shareit/booking/BookingServiceImpl.java:47; src/main/java/ru/practicum/shareit/booking/BookingServiceImpl.java:42 | `create` builds the booking with `BookingMapper.toBooking`, which copies the status from the request, and saves it as is (the older application's mapper is not part of this model; its `BriefBookingDto` carries the same settable `status`) | a user books someone else's available item with `"status": "APPROVED"` in the request; the saved booking is approved without the owner deciding | a new booking is always WAITING, as the entity's default says, and only the owner's `approve` decides it | not executed | BookingService.CreateAsWrittenStoresApproved | BookingService.Create |
| src/main/java/ru/practicum/shareit/user/UserServiceImpl.java:28-31 | `create` checks uniqueness excluding users with the request's own id, then stores the user under a fresh id | store {1: (id 1, "ann", "ann@mail")}, counter 2; `create` of (id 1, "ann", "ann@mail") passes the check and stores a second "ann" under id 2 | a new user is checked against every stored user, since it will get a new id | not executed | LegacyUserService.CreateAsWrittenDuplicates | LegacyUserService.Create |

=== FILE: booking_mapper.dfy ===
/** Conversions between bookings and their transfer objects. */
module BookingMapper {
  import opened Wrappers
  import opened Domain
  import opened Dto
  import Seqs

  /** `toBooking`: a booking with the request's id, start, end and status,
      for exactly the given booker and item. */
  function ToBooking(d: BriefBookingDto, booker: User, item: Item): (b: Booking)
    ensures b.booker == booker && b.item == item
    ensures ToBriefBookingDto(b) == d.(itemId := item.id, bookerId := booker.id)
  {
    Booking(d.id, d.start, d.end, item, booker, d.status)
  }

  /** `toBookingDto`: all six fields, unchanged. */
  function ToBookingDto(b: Booking): (d: BookingDto)
    ensures d.id == b.id && d.start == b.start && d.end == b.end
    ensures d.item == b.item && d.booker == b.booker && d.status == b.status
  {
    BookingDto(b.id, b.start, b.end, b.item, b.booker, b.status)
  }

  /** `toBriefBookingDto`: the booking with its item and booker reduced to
      their ids. */
  function ToBriefBookingDto(b: Booking): (d: BriefBookingDto)
    ensures d.itemId == b.item.id && d.bookerId == b.booker.id
    ensures d.id == b.id && d.start == b.start && d.end == b.end && d.status == b.status
  {
    BriefBookingDto(b.id, b.start, b.end, b.item.id, b.booker.id, b.status)
  }

  /** `toBookingDtoList`: one DTO per booking, in the same order. */
  function ToBookingDtoList(bs: seq<Booking>): (r: seq<BookingDto>)
    ensures |r| == |bs|
    ensures forall i :: 0 <= i < |bs| ==> r[i] == ToBookingDto(bs[i])
  {
    Seqs.Map(bs, ToBookingDto)
  }

  /** Nothing is lost on the way to a `BookingDto`: different bookings give
      different DTOs. */
  lemma ToBookingDtoInjective(a: Booking, b: Booking)
    requires ToBookingDto(a) == ToBookingDto(b)
    ensures a == b
  {
  }

  /** The round trip through the brief form: converting a request to a
      booking and back yields the request with the item's and the booker's
      ids filled in, whatever they were before. */
  lemma BriefRoundTrip(d: BriefBookingDto, booker: User, item: Item)
    ensures var r := ToBriefBookingDto(ToBooking(d, booker, item));
      && r.id == d.id && r.start == d.start && r.end == d.end && r.status == d.status
      && r.itemId == item.id && r.bookerId == booker.id
  {
  }

  /** The brief form loses only the item and the booker: the booking is
      recovered from it and those two. */
  lemma BriefThenBack(b: Booking)
    ensures ToBooking(ToBriefBookingDto(b), b.booker, b.item) == b
  {
  }

  /** List conversion distributes over concatenation, so converting a page
      equals taking the page of the converted list. */
  lemma {:induction false} ToBookingDtoListAppend(a: seq<Booking>, b: seq<Booking>)
    ensures ToBookingDtoList(a + b) == ToBookingDtoList(a) + ToBookingDtoList(b)
  {
    var l := ToBookingDtoList(a + b);
    var r := ToBookingDtoList(a) + ToBookingDtoList(b);
    assert |l| == |r|;
    forall i | 0 <= i < |l|
      ensures l[i] == r[i]
    {
      if i < |a| {
        assert (a + b)[i] == a[i];
      } else {
        assert (a + b)[i] == b[i - |a|];
      }
    }
  }
}

=== FILE: booking_repository.dfy ===
/** The booking queries: which stored bookings each derived or annotated
    repository method returns, and in which order. */
module BookingRepository {
  import opened Wrappers
  import opened Storage
  import opened Domain
  import opened Paging
  import opened Seqs

  /** The `state` a client asks for when listing bookings. */
  datatype SearchStatus =
    | AllBookings
    | CurrentBookings
    | PastBookings
    | FutureBookings
    | WaitingBookings
    | RejectedBookings
    | UnsupportedStatus

  /** Whose bookings a listing shows: those the user made, or those of the
      user's items. */
  datatype Party = AsBooker | AsOwner

  /** `booking.booker.id = :bookerId`, or `booking.item.owner.id = :ownerId`. */
  predicate Involves(b: Booking, party: Party, userId: Id) {
    match party
    case AsBooker => b.booker.id == Some(userId)
    case AsOwner => OwnedBy(b.item, userId)
  }

  /** The time or status condition of one query method. */
  datatype Condition =
    | Unconditional              // findAllByBookerId, findAllByItemOwnerId
    | StartBeforeEndAfter        // the two `@Query` methods for CURRENT
    | EndBefore                  // …AndEndBefore
    | StartAfter                 // …AndStartAfter
    | StatusIs(status: BookingStatus)  // …AndStatus

  /** Whether booking `b` satisfies condition `c` at the instant `date`;
      every comparison is strict. */
  predicate Holds(c: Condition, b: Booking, date: Time) {
    match c
    case Unconditional => true
    case StartBeforeEndAfter => b.start < date && b.end > date
    case EndBefore => b.end < date
    case StartAfter => b.start > date
    case StatusIs(s) => b.status == s
  }

  /** What each search status means, independently of the query that
      implements it: current bookings have begun and not ended, past ones
      have ended, future ones have not begun, and the two status filters
      keep bookings in that status. */
  predicate MeetsSearch(s: SearchStatus, b: Booking, now: Time) {
    match s
    case AllBookings => true
    case CurrentBookings => b.start < now < b.end
    case PastBookings => b.end < now
    case FutureBookings => now < b.start
    case WaitingBookings => b.status == Waiting
    case RejectedBookings => b.status == Rejected
    case UnsupportedStatus => false
  }

  /** The services' `switch`: the query method each search status is sent
      to, and none for `UNSUPPORTED_STATUS`. */
  function Classify(s: SearchStatus): (r: Option<Condition>)
    ensures r.None? <==> s == UnsupportedStatus
  {
    match s
    case AllBookings => Some(Unconditional)
    case CurrentBookings => Some(StartBeforeEndAfter)
    case PastBookings => Some(EndBefore)
    case FutureBookings => Some(StartAfter)
    case WaitingBookings => Some(StatusIs(Waiting))
    case RejectedBookings => Some(StatusIs(Rejected))
    case UnsupportedStatus => None
  }

  /** Every supported search status is answered by a query whose condition
      is exactly the status's meaning. */
  lemma ClassifyMeetsSearch(s: SearchStatus, b: Booking, now: Time)
    requires s != UnsupportedStatus
    ensures Classify(s).Some?
    ensures Holds(Classify(s).value, b, now) <==> MeetsSearch(s, b, now)
  {
  }

  /** The sort key of `SORT_START_DATE_DESC`: ascending in this key is
      descending in start. */
  function StartDesc(b: Booking): int {
    -b.start
  }

  /** A permutation of the rows of `t` that `p` selects holds exactly the
      stored rows `p` selects. */
  lemma MatchingRows(t: Table<Booking>, r: seq<Booking>, p: Booking -> bool)
    requires multiset(r) == multiset(Filter(Scan(t), p))
    ensures forall b :: b in r <==> b in t.rows.Values && p(b)
  {
    SameElements(r, Filter(Scan(t), p));
  }

  /** Newest start first. */
  predicate NewestFirst(bs: seq<Booking>) {
    forall i, j :: 0 <= i < j < |bs| ==> bs[i].start >= bs[j].start
  }

  /** The `WHERE` clause of a listing query: the booking involves the user
      as `party` and satisfies `c` at `date`. */
  function Selects(party: Party, userId: Id, c: Condition, date: Time): Booking -> bool {
    (b: Booking) => Involves(b, party, userId) && Holds(c, b, date)
  }

  /** A booking query sorted by start descending: the bookings of the
      table that involve the user as `party` and satisfy `c` at `date`,
      each stored row exactly once. */
  function FindAll(t: Table<Booking>, party: Party, userId: Id, c: Condition, date: Time): (r: seq<Booking>)
    ensures NewestFirst(r)
    ensures forall b :: b in r <==> b in t.rows.Values && Involves(b, party, userId) && Holds(c, b, date)
    ensures multiset(r) == multiset(Filter(Scan(t), Selects(party, userId, c, date)))
    ensures |r| <= |t.rows|
  {
    var matching := Filter(Scan(t), Selects(party, userId, c, date));
    var r := SortBy(matching, StartDesc);
    assert multiset(r) == multiset(matching);
    MatchingRows(t, r, Selects(party, userId, c, date));
    r
  }

  /** The same query with a `Pageable`: page `p` of the sorted result. */
  function FindPage(t: Table<Booking>, party: Party, userId: Id, c: Condition, date: Time, p: PageRequest): (r: seq<Booking>)
    ensures NewestFirst(r)
    ensures |r| <= p.size
    ensures forall b :: b in r ==> b in t.rows.Values && Involves(b, party, userId) && Holds(c, b, date)
  {
    var all := FindAll(t, party, userId, c, date);
    PageOfNewestFirst(all, p);
    Slice(all, p)
  }

  /** A page of a list sorted newest first is sorted newest first and holds
      only elements of the list. */
  lemma PageOfNewestFirst(all: seq<Booking>, p: PageRequest)
    requires NewestFirst(all)
    ensures NewestFirst(Slice(all, p))
    ensures forall b :: b in Slice(all, p) ==> b in all
  {
    var r := Slice(all, p);
    forall i, j | 0 <= i < j < |r|
      ensures r[i].start >= r[j].start
    {
      assert r[i] == all[Offset(p) + i] && r[j] == all[Offset(p) + j];
    }
    forall b | b in r
      ensures b in all
    {
      var i :| 0 <= i < |r| && r[i] == b;
      assert all[Offset(p) + i] == b;
    }
  }

  /** The `WHERE` clause of `findAllByBookerIdAndItemIdAndEndBeforeAndStatus`. */
  function EndedWith(bookerId: Id, itemId: Id, end: Time, status: BookingStatus): Booking -> bool {
    (b: Booking) => b.booker.id == Some(bookerId) && b.item.id == Some(itemId) && b.end < end && b.status == status
  }

  /** `findAllByBookerIdAndItemIdAndEndBeforeAndStatus`: the user's bookings
      of the item in the given status that ended before `end`, newest
      first, each stored row exactly once. */
  function FindEndedWithStatus(t: Table<Booking>, bookerId: Id, itemId: Id, end: Time, status: BookingStatus)
    : (r: seq<Booking>)
    ensures NewestFirst(r)
    ensures forall b :: b in r <==>
      && b in t.rows.Values
      && b.booker.id == Some(bookerId)
      && b.item.id == Some(itemId)
      && b.end < end
      && b.status == status
    ensures multiset(r) == multiset(Filter(Scan(t), EndedWith(bookerId, itemId, end, status)))
  {
    var matching := Filter(Scan(t), EndedWith(bookerId, itemId, end, status));
    var r := SortBy(matching, StartDesc);
    assert multiset(r) == multiset(matching);
    MatchingRows(t, r, EndedWith(bookerId, itemId, end, status));
    r
  }

  /** `booking.item.id IN :itemIds AND booking.status = 'APPROVED'`; a
      `null` id matches nothing, as in SQL. */
  function ApprovedForItems(itemIds: seq<Option<Id>>): Booking -> bool {
    (b: Booking) => b.item.id.Some? && b.item.id in itemIds && b.status == Approved
  }

  /** `findAllByItemIdIn`: the approved bookings of the listed items, in
      table order. */
  function FindApprovedForItems(t: Table<Booking>, itemIds: seq<Option<Id>>): (r: seq<Booking>)
    ensures forall b :: b in r <==>
      b in t.rows.Values && b.item.id.Some? && b.item.id in itemIds && b.status == Approved
    ensures |r| <= |t.rows|
  {
    Filter(Scan(t), ApprovedForItems(itemIds))
  }
}

=== FILE: booking_service.dfy ===
/** The booking service of the server application: creating, deciding,
    reading and listing bookings. */
module BookingService {
  import opened Wrappers
  import opened Storage
  import opened Domain
  import opened Dto
  import opened Paging
  import opened BookingRepository
  import BookingMapper

  /** The request names an item and both the booker and the item exist. */
  predicate Found(db: Db, d: BriefBookingDto, bookerId: Id) {
    bookerId in db.users.rows && d.itemId.Some? && d.itemId.value in db.items.rows
  }

  /** The item a request names. */
  function RequestedItem(db: Db, d: BriefBookingDto): Item
    requires d.itemId.Some? && d.itemId.value in db.items.rows
  {
    db.items.rows[d.itemId.value]
  }

  /** Every check of `create` passes: booker and item exist, the booker does
      not own the item, the item is available, and the booking ends after it
      starts. */
  predicate Bookable(db: Db, d: BriefBookingDto, bookerId: Id) {
    && Found(db, d, bookerId)
    && !OwnedBy(RequestedItem(db, d), bookerId)
    && IsAvailable(RequestedItem(db, d))
    && d.start < d.end
  }

  /** `db2` is `db` with booking `b` saved under the next id and nothing
      else changed, and `dto` shows `b`. */
  predicate SavedBooking(db: Db, db2: Db, dto: BookingDto, b: Booking) {
    && db2.bookings.rows == db.bookings.rows[db.bookings.nextId := b]
    && db2.bookings.nextId == db.bookings.nextId + 1
    && db2.users == db.users && db2.items == db.items
    && db2.comments == db.comments && db2.requests == db.requests
    && dto == BookingMapper.ToBookingDto(b)
  }

  /** `create` as written: the new booking takes its status from the
      request, so a client that sends `APPROVED` gets an approved booking
      without the owner deciding. */
  function CreateAsWritten(db: Db, d: BriefBookingDto, bookerId: Id): (r: Result<(Db, BookingDto)>)
    ensures r.Ok? <==> Bookable(db, d, bookerId)
    ensures r.Ok? ==> SavedBooking(db, r.value.0, r.value.1,
      Booking(Some(db.bookings.nextId), d.start, d.end, RequestedItem(db, d), db.users.rows[bookerId], d.status))
  {
    var booker :- FindUser(db, bookerId);
    if d.itemId.None? then Err(NullId)
    else
      var item :- FindItem(db, d.itemId.value);
      var booking := BookingMapper.ToBooking(d, booker, item);
      if OwnedBy(item, bookerId) then Err(Forbidden)
      else if !IsAvailable(item) then Err(Validation)
      else if booking.end <= booking.start then Err(Validation)
      else
        var (bookings, saved) := Storage.Create(db.bookings, booking, BookingWithId);
        Ok((db.(bookings := bookings), BookingMapper.ToBookingDto(saved)))
  }

  /** `create` with the status a new booking is meant to have: `WAITING`
      whatever the request says.  Lookups fail first (booker, then item),
      then ownership, then availability, then the time window; exactly one
      booking is saved when every check passes. */
  function Create(db: Db, d: BriefBookingDto, bookerId: Id): (r: Result<(Db, BookingDto)>)
    ensures bookerId !in db.users.rows ==> r == Err(NotFound)
    ensures bookerId in db.users.rows && d.itemId.None? ==> r == Err(NullId)
    ensures bookerId in db.users.rows && d.itemId.Some? && d.itemId.value !in db.items.rows ==> r == Err(NotFound)
    ensures Found(db, d, bookerId) && OwnedBy(RequestedItem(db, d), bookerId) ==> r == Err(Forbidden)
    ensures Found(db, d, bookerId) && !OwnedBy(RequestedItem(db, d), bookerId) && !IsAvailable(RequestedItem(db, d))
      ==> r == Err(Validation)
    ensures (Found(db, d, bookerId) && !OwnedBy(RequestedItem(db, d), bookerId) && IsAvailable(RequestedItem(db, d))
             && d.end <= d.start) ==> r == Err(Validation)
    ensures r.Ok? <==> Bookable(db, d, bookerId)
    ensures r.Ok? ==> SavedBooking(db, r.value.0, r.value.1,
      Booking(Some(db.bookings.nextId), d.start, d.end, RequestedItem(db, d), db.users.rows[bookerId], Waiting))
    ensures r.Ok? ==> |r.value.0.bookings.rows| == |db.bookings.rows| + 1
  {
    var r := CreateAsWritten(db, d.(status := Waiting), bookerId);
    assert db.bookings.nextId !in db.bookings.rows;
    r
  }

  /** The counterexample to the status promise of `create` as written: a
      user books someone else's available item with `status: APPROVED` in
      the request, and the stored booking is approved although nobody
      approved it.  The corrected `Create` stores it as waiting. */
  lemma CreateAsWrittenStoresApproved()
    ensures var owner := User(Some(1), Some("owner"), Some("owner@mail"));
      var booker := User(Some(2), Some("booker"), Some("booker@mail"));
      var item := Item(Some(1), Some("drill"), Some("a drill"), Some(true), Some(owner), None);
      var db := Db(Store(map[1 := owner, 2 := booker], 3), Store(map[1 := item], 2),
                   Store(map[], 1), Store(map[], 1), Store(map[], 1));
      var d := BriefBookingDto(None, 10, 20, Some(1), None, Approved);
      && CreateAsWritten(db, d, 2).Ok?
      && CreateAsWritten(db, d, 2).value.0.bookings.rows[1].status == Approved
      && Create(db, d, 2).Ok?
      && Create(db, d, 2).value.0.bookings.rows[1].status == Waiting
  {
  }

  /** `approve`: the owner of the booked item decides a waiting booking.
      Fails with NotFound for an unknown booking, Forbidden for anyone but
      the item's owner, and Validation for a booking that is not waiting;
      otherwise only that booking's status changes, to `APPROVED` when
      `approved` holds and to `REJECTED` when it does not. */
  function Approve(db: Db, bookingId: Id, userId: Id, approved: bool): (r: Result<(Db, BookingDto)>)
    ensures bookingId !in db.bookings.rows ==> r == Err(NotFound)
    ensures bookingId in db.bookings.rows && !OwnedBy(db.bookings.rows[bookingId].item, userId) ==> r == Err(Forbidden)
    ensures (bookingId in db.bookings.rows && OwnedBy(db.bookings.rows[bookingId].item, userId)
             && db.bookings.rows[bookingId].status != Waiting) ==> r == Err(Validation)
    ensures r.Ok? <==> (bookingId in db.bookings.rows && OwnedBy(db.bookings.rows[bookingId].item, userId)
                        && db.bookings.rows[bookingId].status == Waiting)
    ensures r.Ok? ==> Decided(db, r.value.0, r.value.1, bookingId, approved)
  {
    var b :- FindBooking(db, bookingId);
    if !OwnedBy(b.item, userId) then Err(Forbidden)
    else if b.status != Waiting then Err(Validation)
    else Ok(SetDecision(db, bookingId, b, approved))
  }

  /** Writes the decision back to the booking's own row, as the managed
      entity is flushed at commit. */
  function SetDecision(db: Db, bookingId: Id, b: Booking, approved: bool): (r: (Db, BookingDto))
    requires bookingId in db.bookings.rows && db.bookings.rows[bookingId] == b
    ensures Decided(db, r.0, r.1, bookingId, approved)
  {
    var decided := b.(status := if approved then Approved else Rejected);
    (db.(bookings := Put(db.bookings, bookingId, decided)), BookingMapper.ToBookingDto(decided))
  }

  /** `db2` is `db` after deciding booking `bookingId`: its status is
      `APPROVED` iff `approved`, otherwise `REJECTED`; its other fields,
      every other booking and every other table are unchanged; `dto` shows
      the decided booking. */
  predicate Decided(db: Db, db2: Db, dto: BookingDto, bookingId: Id, approved: bool)
    requires bookingId in db.bookings.rows
  {
    var b := db.bookings.rows[bookingId];
    && db2.bookings.rows.Keys == db.bookings.rows.Keys
    && db2.bookings.nextId == db.bookings.nextId
    && db2.bookings.rows[bookingId] == b.(status := db2.bookings.rows[bookingId].status)
    && (db2.bookings.rows[bookingId].status == Approved <==> approved)
    && (db2.bookings.rows[bookingId].status == Rejected <==> !approved)
    && (forall k :: k in db.bookings.rows && k != bookingId ==> db2.bookings.rows[k] == db.bookings.rows[k])
    && db2.users == db.users && db2.items == db.items
    && db2.comments == db.comments && db2.requests == db.requests
    && dto == BookingMapper.ToBookingDto(db2.bookings.rows[bookingId])
  }

  /** A booking is decided once: a second `approve`, by anyone and either
      way, fails with Validation. */
  lemma ApproveTwiceFails(db: Db, bookingId: Id, userId: Id, approved: bool, again: bool)
    requires Approve(db, bookingId, userId, approved).Ok?
    ensures Approve(Approve(db, bookingId, userId, approved).value.0, bookingId, userId, again) == Err(Validation)
  {
  }

  /** `get`: the booking, for its booker or the owner of its item.  The
      booking is looked up first, then the user; the user's own id is
      compared with the booker's and the owner's. */
  function Get(db: Db, bookingId: Id, userId: Id): (r: Result<BookingDto>)
    ensures bookingId !in db.bookings.rows ==> r == Err(NotFound)
    ensures bookingId in db.bookings.rows && userId !in db.users.rows ==> r == Err(NotFound)
    ensures r.Ok? <==> && bookingId in db.bookings.rows && userId in db.users.rows
                       && db.users.rows[userId].id.Some?
                       && Visible(db.bookings.rows[bookingId], db.users.rows[userId].id.value)
    ensures r.Err? && bookingId in db.bookings.rows && userId in db.users.rows ==> r.error == Forbidden
    ensures r.Ok? ==> r.value == BookingMapper.ToBookingDto(db.bookings.rows[bookingId])
  {
    var b :- FindBooking(db, bookingId);
    var user :- FindUser(db, userId);
    if user.id.Some? && (user.id == b.booker.id || user.id == OwnerId(b.item))
    then Ok(BookingMapper.ToBookingDto(b))
    else Err(Forbidden)
  }

  /** Every user record carries its own key as id. */
  predicate UsersKeyed(db: Db) {
    forall k :: k in db.users.rows ==> db.users.rows[k].id == Some(k)
  }

  /** In a database whose users carry their keys, `get` succeeds exactly for
      the booker and the item's owner, and refuses every other existing
      user with Forbidden. */
  lemma GetOnlyForParticipants(db: Db, bookingId: Id, userId: Id)
    requires UsersKeyed(db)
    requires bookingId in db.bookings.rows && userId in db.users.rows
    ensures Get(db, bookingId, userId).Ok? <==> Visible(db.bookings.rows[bookingId], userId)
    ensures Get(db, bookingId, userId).Err? ==> Get(db, bookingId, userId).error == Forbidden
  {
  }

  /** `getByBookerId` and `getByOwnerId`: the user must exist; the page
      request is built from `from` and `size`; each supported status is sent
      to its query and any other fails with UnknownState.  The result is one
      page of the user's bookings meeting the status, newest first. */
  function ListBookings(db: Db, party: Party, userId: Id, status: SearchStatus, from: int, size: int, now: Time)
    : (r: Result<seq<BookingDto>>)
    requires from >= 0 && size >= 1
    ensures userId !in db.users.rows ==> r == Err(NotFound)
    ensures userId in db.users.rows && status == UnsupportedStatus ==> r == Err(UnknownState)
    ensures r.Ok? <==> userId in db.users.rows && status != UnsupportedStatus
    ensures r.Ok? ==> |r.value| <= size
    ensures r.Ok? ==> forall i, j :: 0 <= i < j < |r.value| ==> r.value[i].start >= r.value[j].start
    ensures r.Ok? ==> forall i :: 0 <= i < |r.value| ==> exists b ::
      && b in db.bookings.rows.Values
      && Involves(b, party, userId)
      && MeetsSearch(status, b, now)
      && r.value[i] == BookingMapper.ToBookingDto(b)
  {
    var _ :- FindUser(db, userId);
    var page := PageSettings(from, size, SortStartDateDesc);
    match Classify(status)
    case None => Err(UnknownState)
    case Some(c) =>
      var bs := FindPage(db.bookings, party, userId, c, now, page);
      ListedBookings(db, party, userId, status, c, now, bs);
      Ok(BookingMapper.ToBookingDtoList(bs))
  }

  /** The DTOs of bookings a query selected for a supported status show
      stored bookings of the user that meet the status, in the order of the
      query. */
  lemma ListedBookings(db: Db, party: Party, userId: Id, status: SearchStatus, c: Condition, now: Time, bs: seq<Booking>)
    requires Classify(status) == Some(c)
    requires NewestFirst(bs)
    requires forall b :: b in bs ==> b in db.bookings.rows.Values && Involves(b, party, userId) && Holds(c, b, now)
    ensures var dtos := BookingMapper.ToBookingDtoList(bs);
      && (forall i, j :: 0 <= i < j < |dtos| ==> dtos[i].start >= dtos[j].start)
      && (forall i :: 0 <= i < |dtos| ==> exists b ::
            && b in db.bookings.rows.Values
            && Involves(b, party, userId)
            && MeetsSearch(status, b, now)
            && dtos[i] == BookingMapper.ToBookingDto(b))
  {
    var dtos := BookingMapper.ToBookingDtoList(bs);
    forall i | 0 <= i < |dtos|
      ensures exists b ::
            && b in db.bookings.rows.Values
            && Involves(b, party, userId)
            && MeetsSearch(status, b, now)
            && dtos[i] == BookingMapper.ToBookingDto(b)
    {
      assert bs[i] in bs;
      ClassifyMeetsSearch(status, bs[i], now);
      assert dtos[i] == BookingMapper.ToBookingDto(bs[i]);
    }
  }

  /** `getByBookerId`. */
  function GetByBookerId(db: Db, bookerId: Id, status: SearchStatus, from: int, size: int, now: Time)
    : (r: Result<seq<BookingDto>>)
    requires from >= 0 && size >= 1
    ensures r.Ok? <==> bookerId in db.users.rows && status != UnsupportedStatus
    ensures r.Ok? ==> forall i :: 0 <= i < |r.value| ==> r.value[i].booker.id == Some(bookerId)
  {
    ListBookings(db, AsBooker, bookerId, status, from, size, now)
  }

  /** `getByOwnerId`. */
  function GetByOwnerId(db: Db, ownerId: Id, status: SearchStatus, from: int, size: int, now: Time)
    : (r: Result<seq<BookingDto>>)
    requires from >= 0 && size >= 1
    ensures r.Ok? <==> ownerId in db.users.rows && status != UnsupportedStatus
    ensures r.Ok? ==> forall i :: 0 <= i < |r.value| ==> OwnedBy(r.value[i].item, ownerId)
  {
    ListBookings(db, AsOwner, ownerId, status, from, size, now)
  }

  /** A stored booking ends after it starts and was not made by the owner
      of its item. */
  predicate WellFormedBooking(b: Booking) {
    && b.start < b.end
    && (b.booker.id.Some? ==> !OwnedBy(b.item, b.booker.id.value))
  }

  /** Every stored booking is well formed. */
  predicate BookingsWellFormed(db: Db) {
    forall k :: k in db.bookings.rows ==> WellFormedBooking(db.bookings.rows[k])
  }

  /** `create` keeps every booking well formed and adds a waiting one. */
  lemma CreateKeepsWellFormed(db: Db, d: BriefBookingDto, bookerId: Id)
    requires UsersKeyed(db) && BookingsWellFormed(db)
    requires Create(db, d, bookerId).Ok?
    ensures var db2 := Create(db, d, bookerId).value.0;
      && UsersKeyed(db2) && BookingsWellFormed(db2)
      && db2.bookings.rows[db.bookings.nextId].status == Waiting
  {
    var db2 := Create(db, d, bookerId).value.0;
    forall k | k in db2.bookings.rows
      ensures WellFormedBooking(db2.bookings.rows[k])
    {
      if k != db.bookings.nextId {
        assert db2.bookings.rows[k] == db.bookings.rows[k];
      }
    }
  }

  /** `approve` changes a status only, so every booking stays well formed. */
  lemma ApproveKeepsWellFormed(db: Db, bookingId: Id, userId: Id, approved: bool)
    requires BookingsWellFormed(db)
    requires Approve(db, bookingId, userId, approved).Ok?
    ensures BookingsWellFormed(Approve(db, bookingId, userId, approved).value.0)
  {
    var db2 := Approve(db, bookingId, userId, approved).value.0;
    forall k | k in db2.bookings.rows
      ensures WellFormedBooking(db2.bookings.rows[k])
    {
      assert WellFormedBooking(db.bookings.rows[k]);
    }
  }
}

=== FILE: comment_mapper.dfy ===
/** Conversions between comments and their transfer objects. */
module CommentMapper {
  import opened Wrappers
  import opened Storage
  import opened Domain
  import opened Dto
  import Seqs

  /** `new Comment()`: id 0 and every reference `null`. */
  const BlankComment := Comment(0, None, None, None, None)

  /** `toComment`: for a `null` request a blank comment; otherwise the
      request's text, written by `user` about `item` at `created`.  The
      request's id and author name are ignored. */
  function ToComment(d: Option<CommentDto>, user: User, item: Item, created: Time): (c: Comment)
    ensures d.None? ==> c == BlankComment
    ensures d.Some? ==> c.author == Some(user) && c.item == Some(item) && c.created == Some(created)
    ensures d.Some? ==> c.text == d.value.text && c.id == BlankComment.id
  {
    match d
    case None => BlankComment
    case Some(dto) => Comment(0, dto.text, Some(item), Some(user), Some(created))
  }

  /** `toCommentDto`: for `null` an empty DTO; otherwise the comment's id,
      text and creation time, and its author's name.  A comment without an
      author yields no author name. */
  function ToCommentDto(c: Option<Comment>): (d: CommentDto)
    ensures c.None? ==> d == EmptyCommentDto
    ensures c.Some? ==> d.id == Some(c.value.id) && d.text == c.value.text && d.created == c.value.created
    ensures c.Some? && c.value.author.Some? ==> d.authorName == c.value.author.value.name
    ensures c.Some? && c.value.author.None? ==> d.authorName == None
  {
    match c
    case None => EmptyCommentDto
    case Some(cm) =>
      var authorName := if cm.author.Some? then cm.author.value.name else None;
      CommentDto(Some(cm.id), cm.text, authorName, cm.created)
  }

  /** The list form of `ToCommentDto` on present comments. */
  function CommentToDto(c: Comment): CommentDto {
    ToCommentDto(Some(c))
  }

  /** `toCommentDtoList`: empty for `null`; otherwise one DTO per comment, in
      order. */
  function ToCommentDtoList(cs: Option<seq<Comment>>): (r: seq<CommentDto>)
    ensures cs.None? ==> r == []
    ensures cs.Some? ==> |r| == |cs.value|
    ensures cs.Some? ==> forall i :: 0 <= i < |r| ==> r[i] == ToCommentDto(Some(cs.value[i]))
  {
    match cs
    case None => []
    case Some(list) => Seqs.Map(list, CommentToDto)
  }

  /** The round trip: a saved comment made from a request shows the
      request's text, the author's name and the creation time, under the id
      the comment carries. */
  lemma CommentRoundTrip(d: CommentDto, user: User, item: Item, created: Time, id: Id)
    ensures ToCommentDto(Some(CommentWithId(ToComment(Some(d), user, item, created), id)))
      == CommentDto(Some(id), d.text, user.name, Some(created))
  {
  }
}

=== FILE: domain.dfy ===
/** The entities of the sharing service and the database that holds them.
    Java references that may be `null` are `Option`s; timestamps are
    integers on one clock. */
module Domain {
  import opened Wrappers
  import opened Storage

  /** A `LocalDateTime`, as a point on one integer clock. */
  type Time = int

  /** The lifecycle of a booking; a new booking is `Waiting`. */
  datatype BookingStatus = Waiting | Approved | Rejected | Canceled

  datatype User = User(id: Option<Id>, name: Option<string>, email: Option<string>)

  datatype ItemRequest = ItemRequest(
    id: Option<Id>,
    description: Option<string>,
    requester: Option<User>,
    created: Option<Time>)

  datatype Item = Item(
    id: Option<Id>,
    name: Option<string>,
    description: Option<string>,
    available: Option<bool>,
    owner: Option<User>,
    request: Option<ItemRequest>)

  /** A booking keeps the item and the booker it was made for.  Start and
      end are never `null` here: the gateway rejects a request without them. */
  datatype Booking = Booking(
    id: Option<Id>,
    start: Time,
    end: Time,
    item: Item,
    booker: User,
    status: BookingStatus)

  /** `Comment.id` is a primitive `long`, so a fresh comment has id 0. */
  datatype Comment = Comment(
    id: Id,
    text: Option<string>,
    item: Option<Item>,
    author: Option<User>,
    created: Option<Time>)

  /** The database tables. */
  datatype Db = Db(
    users: Table<User>,
    items: Table<Item>,
    bookings: Table<Booking>,
    comments: Table<Comment>,
    requests: Table<ItemRequest>)

  /** The id of the item's owner, or `null` for an item without one. */
  function OwnerId(item: Item): (r: Option<Id>)
    ensures r.Some? <==> item.owner.Some? && item.owner.value.id.Some?
    ensures r.Some? ==> r.value == item.owner.value.id.value
  {
    if item.owner.Some? then item.owner.value.id else None
  }

  /** `userId.equals(item.getOwner().getId())`. */
  predicate OwnedBy(item: Item, userId: Id) {
    OwnerId(item) == Some(userId)
  }

  /** `item.getAvailable()` read as a condition; `null` counts as false. */
  predicate IsAvailable(item: Item) {
    item.available == Some(true)
  }

  /** A booking may be shown to its booker and to the owner of its item. */
  predicate Visible(b: Booking, userId: Id) {
    b.booker.id == Some(userId) || OwnedBy(b.item, userId)
  }

  /** The `setId` each table's identity column performs on save. */
  function UserWithId(u: User, id: Id): User { u.(id := Some(id)) }
  function ItemWithId(i: Item, id: Id): Item { i.(id := Some(id)) }
  function BookingWithId(b: Booking, id: Id): Booking { b.(id := Some(id)) }
  function CommentWithId(c: Comment, id: Id): Comment { c.(id := id) }
  function RequestWithId(r: ItemRequest, id: Id): ItemRequest { r.(id := Some(id)) }

  /** A user record found by id, or `DataNotFoundException`. */
  function FindUser(db: Db, id: Id): (r: Result<User>)
    ensures r.Ok? <==> id in db.users.rows
    ensures r.Ok? ==> r.value == db.users.rows[id]
    ensures r.Err? ==> r.error == NotFound
  {
    match Get(db.users, id)
    case Some(u) => Ok(u)
    case None => Err(NotFound)
  }

  /** An item record found by id, or `DataNotFoundException`. */
  function FindItem(db: Db, id: Id): (r: Result<Item>)
    ensures r.Ok? <==> id in db.items.rows
    ensures r.Ok? ==> r.value == db.items.rows[id]
    ensures r.Err? ==> r.error == NotFound
  {
    match Get(db.items, id)
    case Some(i) => Ok(i)
    case None => Err(NotFound)
  }

  /** A booking record found by id, or `DataNotFoundException`. */
  function FindBooking(db: Db, id: Id): (r: Result<Booking>)
    ensures r.Ok? <==> id in db.bookings.rows
    ensures r.Ok? ==> r.value == db.bookings.rows[id]
    ensures r.Err? ==> r.error == NotFound
  {
    match Get(db.bookings, id)
    case Some(b) => Ok(b)
    case None => Err(NotFound)
  }

  /** A request record found by id, or `DataNotFoundException`. */
  function FindRequest(db: Db, id: Id): (r: Result<ItemRequest>)
    ensures r.Ok? <==> id in db.requests.rows
    ensures r.Ok? ==> r.value == db.requests.rows[id]
    ensures r.Err? ==> r.error == NotFound
  {
    match Get(db.requests, id)
    case Some(q) => Ok(q)
    case None => Err(NotFound)
  }
}

=== FILE: dto.dfy ===
/** The transfer objects the services return.  Fields a mapper leaves
    unset are `None`, as Java leaves them `null`. */
module Dto {
  import opened Wrappers
  import opened Storage
  import opened Domain

  datatype BookingDto = BookingDto(
    id: Option<Id>,
    start: Time,
    end: Time,
    item: Item,
    booker: User,
    status: BookingStatus)

  /** What a client sends to create a booking, and what an item shows as its
      last and next booking.  `status` defaults to `Waiting` in Java, but a
      client may send any value. */
  datatype BriefBookingDto = BriefBookingDto(
    id: Option<Id>,
    start: Time,
    end: Time,
    itemId: Option<Id>,
    bookerId: Option<Id>,
    status: BookingStatus)

  datatype CommentDto = CommentDto(
    id: Option<Id>,
    text: Option<string>,
    authorName: Option<string>,
    created: Option<Time>)

  /** The item DTO with every field the item service sets: the comments
      and the last and next booking, which the older application's DTO
      class does not declare, and the server's request id. */
  datatype ItemDto = ItemDto(
    id: Option<Id>,
    name: Option<string>,
    description: Option<string>,
    available: Option<bool>,
    ownerId: Option<Id>,
    comments: Option<seq<CommentDto>>,
    lastBooking: Option<BriefBookingDto>,
    nextBooking: Option<BriefBookingDto>,
    requestId: Option<Id>)

  datatype UserDto = UserDto(id: Option<Id>, name: Option<string>, email: Option<string>)

  datatype ItemRequestDto = ItemRequestDto(
    id: Option<Id>,
    description: Option<string>,
    created: Option<Time>,
    items: Option<seq<ItemDto>>)

  /** `new CommentDto()`. */
  const EmptyCommentDto := CommentDto(None, None, None, None)

  /** `new ItemDto()`. */
  const EmptyItemDto := ItemDto(None, None, None, None, None, None, None, None, None)

  /** `new ItemRequestDto()`. */
  const EmptyItemRequestDto := ItemRequestDto(None, None, None, None)
}

=== FILE: in_memory_storage.dfy ===
/** The filters of the older application's in-memory stores: the text
    search over items and the name and email lookups over users.  The
    stores themselves are `Storage.Store`s; `getAll` is `Storage.Scan`, and
    `getByOwner` is the same filter as `ItemService.FindByOwner`. */
module InMemoryStorage {
  import opened Wrappers
  import opened Storage
  import opened Domain
  import opened Seqs
  import opened Text
  import ItemService

  /** `matches(src, text)`: the lower-cased `src` matches the regular
      expression `(.*)text(.*)` built from the lower-cased text, read as a
      literal; a `null` field matches nothing. */
  predicate Matches(src: Option<string>, text: string) {
    src.Some? && MatchesAround(Lower(src.value), Lower(text))
  }

  /** The condition of `search`: the name or the description matches and
      the item is available. */
  predicate Hit(i: Item, text: string) {
    (Matches(i.name, text) || Matches(i.description, text)) && IsAvailable(i)
  }

  /** `search`: the available stored items whose name or description
      matches the text.  The caller's id is not consulted. */
  function SearchItems(s: Store<Item>, ownerId: Id, text: string): (r: seq<Item>)
    ensures forall i :: i in r <==> i in s.rows.Values && Hit(i, text)
    ensures forall i :: i in r ==> IsAvailable(i)
    ensures |r| <= |s.rows|
  {
    Filter(Scan(s), (i: Item) => Hit(i, text))
  }

  /** `s` holds no line terminator. */
  predicate SingleLine(s: string) {
    forall j | 0 <= j < |s| :: !IsLineBreak(s[j])
  }

  /** Folding case neither adds nor removes line terminators. */
  lemma LowerKeepsLines(s: string)
    ensures SingleLine(Lower(s)) <==> SingleLine(s)
  {
    forall j | 0 <= j < |s|
      ensures IsLineBreak(Lower(s)[j]) <==> IsLineBreak(s[j])
    {
      assert Lower(s)[j] == LowerChar(s[j]);
    }
  }

  /** The in-memory match is the database's `LIKE` match restricted to one
      line: every regular-expression match is a `LIKE` match, and on a
      field without line terminators the two agree. */
  lemma MatchesIsLike(src: Option<string>, text: string)
    ensures Matches(src, text) ==> ItemService.FieldMatches(src, text)
    ensures src.Some? && SingleLine(src.value) ==> (Matches(src, text) <==> ItemService.FieldMatches(src, text))
  {
    if src.Some? {
      MatchAroundIsContains(Lower(src.value), Lower(text));
      LowerKeepsLines(src.value);
    }
  }

  /** Every item the in-memory search finds, the database search finds
      too; for items whose name and description are single lines, the two
      searches agree. */
  lemma SearchesAgree(i: Item, text: string)
    ensures Hit(i, text) ==> ItemService.Found(i, text)
    ensures (i.name.None? || SingleLine(i.name.value)) && (i.description.None? || SingleLine(i.description.value))
      ==> (Hit(i, text) <==> ItemService.Found(i, text))
  {
    MatchesIsLike(i.name, text);
    MatchesIsLike(i.description, text);
  }

  /** `query.matches(stored)` for a stored value without regular-expression
      metacharacters: the two strings are equal.  A `null` on either side
      matches nothing. */
  predicate SameText(query: Option<string>, stored: Option<string>) {
    query.Some? && stored == query
  }

  /** The two user fields the store can be searched by. */
  datatype UserField = ByName | ByEmail

  function FieldOf(u: User, f: UserField): Option<string> {
    match f
    case ByName => u.name
    case ByEmail => u.email
  }

  /** The filter of a lookup: the field of the user is the queried text. */
  function HasField(f: UserField, query: Option<string>): User -> bool {
    (u: User) => SameText(query, FieldOf(u, f))
  }

  /** `getByName` (`ByName`) and `getByEmail` (`ByEmail`): the stored users
      whose field is the queried text. */
  function UsersWith(s: Store<User>, f: UserField, query: Option<string>): (r: seq<User>)
    ensures forall u :: u in r <==> u in s.rows.Values && SameText(query, FieldOf(u, f))
    ensures |r| <= |s.rows|
  {
    Filter(Scan(s), HasField(f, query))
  }
}

=== FILE: item_mapper.dfy ===
/** Conversions between items and their transfer objects. */
module ItemMapper {
  import opened Wrappers
  import opened Domain
  import opened Dto
  import Seqs

  /** `new Item()`. */
  const BlankItem := Item(None, None, None, None, None, None)

  /** `toItemDto`: for `null` an empty DTO; otherwise the item's id, name,
      description and availability, and its owner's id.  Comments, bookings
      and the request id stay unset. */
  function ToItemDto(i: Option<Item>): (d: ItemDto)
    ensures i.None? ==> d == EmptyItemDto
    ensures i.Some? ==> d.id == i.value.id && d.name == i.value.name
    ensures i.Some? ==> d.description == i.value.description && d.available == i.value.available
    ensures i.Some? ==> d.ownerId == OwnerId(i.value)
    ensures d.comments.None? && d.lastBooking.None? && d.nextBooking.None? && d.requestId.None?
  {
    match i
    case None => EmptyItemDto
    case Some(item) =>
      EmptyItemDto.(id := item.id, name := item.name, description := item.description,
                    available := item.available, ownerId := OwnerId(item))
  }

  /** `toItem`: for `null` a blank item; otherwise the request's id, name,
      description and availability, with no owner and no request. */
  function ToItem(d: Option<ItemDto>): (i: Item)
    ensures d.None? ==> i == BlankItem
    ensures d.Some? ==> i.id == d.value.id && i.name == d.value.name
    ensures d.Some? ==> i.description == d.value.description && i.available == d.value.available
    ensures i.owner.None? && i.request.None?
  {
    match d
    case None => BlankItem
    case Some(dto) => Item(dto.id, dto.name, dto.description, dto.available, None, None)
  }

  /** The list form of `ToItemDto` on present items. */
  function ItemToDto(i: Item): ItemDto {
    ToItemDto(Some(i))
  }

  /** `toItemsDto`: empty for `null`; otherwise one DTO per item, in order.
      It also stands for `toItemDtoList`, which the services call but the
      source does not define. */
  function ToItemsDto(items: Option<seq<Item>>): (r: seq<ItemDto>)
    ensures items.None? ==> r == []
    ensures items.Some? ==> |r| == |items.value|
    ensures items.Some? ==> forall k :: 0 <= k < |r| ==> r[k] == ToItemDto(Some(items.value[k]))
  {
    match items
    case None => []
    case Some(list) => Seqs.Map(list, ItemToDto)
  }

  /** From a request to an item owned by `o` and back: the four copied
      fields survive and the owner id is `o`'s. */
  lemma ItemRoundTrip(d: ItemDto, o: User)
    ensures var r := ToItemDto(Some(ToItem(Some(d)).(owner := Some(o))));
      && r.id == d.id && r.name == d.name && r.description == d.description
      && r.available == d.available && r.ownerId == o.id
  {
  }

  /** From an item to a DTO and back: everything but the owner and the
      request survives. */
  lemma ItemBackAndForth(i: Item)
    ensures ToItem(Some(ToItemDto(Some(i)))) == i.(owner := None, request := None)
  {
  }
}

=== FILE: item_service.dfy ===
/** The item service of the older application: creating, changing,
    reading, listing and searching items, and commenting on them.  An
    item's page shows its comments and, to its owner only, its last and
    next approved bookings. */
module ItemService {
  import opened Wrappers
  import opened Storage
  import opened Domain
  import opened Dto
  import opened Seqs
  import opened Text
  import opened BookingRepository
  import ItemMapper
  import CommentMapper
  import BookingMapper
  import BookingService

  // ---------------------------------------------------------------------
  // Create, update, delete

  /** `create`: the owner must exist; the item is saved under a fresh id
      with that owner and no request. */
  function CreateItem(db: Db, d: ItemDto, ownerId: Id): (r: Result<(Db, ItemDto)>)
    ensures ownerId !in db.users.rows ==> r == Err(NotFound)
    ensures r.Ok? <==> ownerId in db.users.rows
    ensures r.Ok? ==>
      var stored := Item(Some(db.items.nextId), d.name, d.description, d.available,
                         Some(db.users.rows[ownerId]), None);
      && r.value.0.items.rows == db.items.rows[db.items.nextId := stored]
      && r.value.0.items.nextId == db.items.nextId + 1
      && r.value.0 == db.(items := r.value.0.items)
      && r.value.1 == ItemMapper.ToItemDto(Some(stored))
  {
    var owner :- FindUser(db, ownerId);
    var item := ItemMapper.ToItem(Some(d)).(owner := Some(owner));
    var (items, saved) := Storage.Create(db.items, item, ItemWithId);
    Ok((db.(items := items), ItemMapper.ToItemDto(Some(saved))))
  }

  /** The partial update `update` applies: a field the request leaves
      `null` keeps its value, a field it sets is overwritten, and the id,
      the owner and the request never change. */
  function Patch(item: Item, d: ItemDto): (r: Item)
    ensures r.id == item.id && r.owner == item.owner && r.request == item.request
    ensures d.name.None? ==> r.name == item.name
    ensures d.name.Some? ==> r.name == d.name
    ensures d.description.None? ==> r.description == item.description
    ensures d.description.Some? ==> r.description == d.description
    ensures d.available.None? ==> r.available == item.available
    ensures d.available.Some? ==> r.available == d.available
  {
    var item := if d.name.Some? then item.(name := d.name) else item;
    var item := if d.description.Some? then item.(description := d.description) else item;
    if d.available.Some? then item.(available := d.available) else item
  }

  /** Applying the same partial update twice is applying it once. */
  lemma PatchIdempotent(item: Item, d: ItemDto)
    ensures Patch(Patch(item, d), d) == Patch(item, d)
  {
  }

  /** A request that sets nothing changes nothing. */
  lemma PatchNothing(item: Item)
    ensures Patch(item, EmptyItemDto) == item
  {
  }

  /** `update`: NotFound for an unknown item, Forbidden for anyone but its
      owner; otherwise the stored item is patched in place and nothing
      else in the database changes. */
  function Update(db: Db, itemId: Id, d: ItemDto, ownerId: Id): (r: Result<(Db, ItemDto)>)
    ensures itemId !in db.items.rows ==> r == Err(NotFound)
    ensures itemId in db.items.rows && !OwnedBy(db.items.rows[itemId], ownerId) ==> r == Err(Forbidden)
    ensures r.Ok? <==> itemId in db.items.rows && OwnedBy(db.items.rows[itemId], ownerId)
    ensures r.Ok? ==>
      var patched := Patch(db.items.rows[itemId], d);
      && Get(r.value.0.items, itemId) == Some(patched)
      && (forall k :: k != itemId ==> Get(r.value.0.items, k) == Get(db.items, k))
      && r.value.0.items.nextId == db.items.nextId
      && r.value.0 == db.(items := r.value.0.items)
      && r.value.1 == ItemMapper.ToItemDto(Some(patched))
  {
    var item :- FindItem(db, itemId);
    if !OwnedBy(item, ownerId) then Err(Forbidden)
    else
      var patched := Patch(item, d);
      Ok((db.(items := Put(db.items, itemId, patched)), ItemMapper.ToItemDto(Some(patched))))
  }

  /** Repeating an update that succeeded leaves the database as it is. */
  lemma UpdateTwice(db: Db, itemId: Id, d: ItemDto, ownerId: Id)
    requires Update(db, itemId, d, ownerId).Ok?
    ensures var (db2, dto) := Update(db, itemId, d, ownerId).value;
      Update(db2, itemId, d, ownerId) == Ok((db2, dto))
  {
    var (db2, dto) := Update(db, itemId, d, ownerId).value;
    PatchIdempotent(db.items.rows[itemId], d);
    assert db2.items.rows[itemId := Patch(db2.items.rows[itemId], d)] == db2.items.rows;
  }

  /** Once its owner marks an item unavailable, nobody else can book it:
      booking creation fails with Validation whatever the time window. */
  lemma UnavailableItemCannotBeBooked(db: Db, itemId: Id, ownerId: Id, bd: BriefBookingDto, bookerId: Id)
    requires Update(db, itemId, EmptyItemDto.(available := Some(false)), ownerId).Ok?
    requires bd.itemId == Some(itemId) && bookerId in db.users.rows && bookerId != ownerId
    ensures BookingService.Create(Update(db, itemId, EmptyItemDto.(available := Some(false)), ownerId).value.0,
                                  bd, bookerId) == Err(Validation)
  {
    var db2 := Update(db, itemId, EmptyItemDto.(available := Some(false)), ownerId).value.0;
    assert Get(db2.items, itemId).Some?;
    assert !IsAvailable(db2.items.rows[itemId]);
  }

  /** `delete`: `deleteById` fails with EmptyResult for an absent id and
      otherwise removes the item; nothing else changes. */
  function Delete(db: Db, itemId: Id): (r: Result<Db>)
    ensures r.Err? <==> itemId !in db.items.rows
    ensures r.Err? ==> r.error == EmptyResult
    ensures r.Ok? ==> itemId !in r.value.items.rows
    ensures r.Ok? ==> forall k :: k != itemId ==> Get(r.value.items, k) == Get(db.items, k)
    ensures r.Ok? ==> r.value == db.(items := r.value.items) && r.value.items.nextId == db.items.nextId
  {
    if itemId !in db.items.rows then Err(EmptyResult)
    else Ok(db.(items := Storage.Delete(db.items, itemId)))
  }

  // ---------------------------------------------------------------------
  // Grouping bookings and comments by item

  /** `booking.getItem().getId()`. */
  function BookingItemId(b: Booking): Option<Id> {
    b.item.id
  }

  /** The approved bookings of the item with id `key`, and no booking for
      a `null` key. */
  function ApprovedOf(key: Option<Id>): Booking -> bool {
    (b: Booking) => key.Some? && b.item.id == key && b.status == Approved
  }

  /** The approved bookings of one item, in table order: what a query for
      that item alone returns. */
  function ApprovedBookingsOf(db: Db, key: Option<Id>): (r: seq<Booking>)
    ensures forall b :: b in r <==> b in db.bookings.rows.Values && key.Some? && b.item.id == key && b.status == Approved
  {
    Filter(Scan(db.bookings), ApprovedOf(key))
  }

  /** `getBookingsByItemIds`: the approved bookings of the listed items,
      grouped by item id. */
  function BookingsByItemIds(db: Db, itemIds: seq<Option<Id>>): (r: map<Option<Id>, seq<Booking>>)
    ensures forall k :: k in r ==> k in itemIds && k.Some? && |r[k]| > 0
    ensures forall k :: k in itemIds ==> Lookup(r, k) == ApprovedBookingsOf(db, k)
  {
    var r := GroupBy(FindApprovedForItems(db.bookings, itemIds), BookingItemId);
    BookingGroups(db, itemIds);
    r
  }

  /** Each group of `getBookingsByItemIds` holds exactly the approved
      bookings of its item, in table order, and only listed items have a
      group. */
  lemma BookingGroups(db: Db, itemIds: seq<Option<Id>>)
    ensures var r := GroupBy(FindApprovedForItems(db.bookings, itemIds), BookingItemId);
      (forall k :: k in r ==> k in itemIds && k.Some? && |r[k]| > 0)
      && (forall k :: k in itemIds ==> Lookup(r, k) == ApprovedBookingsOf(db, k))
  {
    var r := GroupBy(FindApprovedForItems(db.bookings, itemIds), BookingItemId);
    var found := FindApprovedForItems(db.bookings, itemIds);
    forall k | k in itemIds
      ensures Lookup(r, k) == ApprovedBookingsOf(db, k)
    {
      BookingGroupAt(db, itemIds, k);
    }
    forall k | k in r
      ensures k in itemIds && k.Some?
    {
      var group := Filter(found, KeyIs(BookingItemId, k));
      assert Lookup(r, k) == group;
      assert group[0] in group;
    }
  }

  /** The group of one listed item is the approved bookings of that item. */
  lemma BookingGroupAt(db: Db, itemIds: seq<Option<Id>>, k: Option<Id>)
    requires k in itemIds
    ensures Filter(FindApprovedForItems(db.bookings, itemIds), KeyIs(BookingItemId, k)) == ApprovedBookingsOf(db, k)
  {
    var all := Scan(db.bookings);
    var p, q := ApprovedForItems(itemIds), KeyIs(BookingItemId, k);
    assert FindApprovedForItems(db.bookings, itemIds) == Filter(all, p);
    FilterFilter(all, p, q);
    forall b: Booking
      ensures Both(p, q)(b) == ApprovedOf(k)(b)
    {
      assert Both(p, q)(b) == (p(b) && q(b));
      assert q(b) == (BookingItemId(b) == k);
    }
    FilterAgree(all, Both(p, q), ApprovedOf(k));
  }

  /** `comment.getItem().getId()`, `null` for a comment without an item. */
  function CommentItemId(c: Comment): Option<Id> {
    if c.item.Some? then c.item.value.id else None
  }

  /** `comment.item.id IN :itemIds`; a `null` id matches nothing. */
  function CommentForItems(itemIds: seq<Option<Id>>): Comment -> bool {
    (c: Comment) => CommentItemId(c).Some? && CommentItemId(c) in itemIds
  }

  /** The comments of the item with id `key`, and none for a `null` key. */
  function CommentOf(key: Option<Id>): Comment -> bool {
    (c: Comment) => key.Some? && CommentItemId(c) == key
  }

  /** The comments of one item, in id order. */
  function CommentsOf(db: Db, key: Option<Id>): (r: seq<Comment>)
    ensures forall c :: c in r <==> c in db.comments.rows.Values && key.Some? && CommentItemId(c) == key
  {
    Filter(Scan(db.comments), CommentOf(key))
  }

  /** `getCommentsByItemIds`: the comments of the listed items, in id
      order, grouped by item id. */
  function CommentsByItemIds(db: Db, itemIds: seq<Option<Id>>): (r: map<Option<Id>, seq<Comment>>)
    ensures forall k :: k in r ==> k in itemIds && k.Some? && |r[k]| > 0
    ensures forall k :: k in itemIds ==> Lookup(r, k) == CommentsOf(db, k)
  {
    var r := GroupBy(Filter(Scan(db.comments), CommentForItems(itemIds)), CommentItemId);
    CommentGroups(db, itemIds);
    r
  }

  /** Each group of `getCommentsByItemIds` holds exactly the comments of
      its item, and only listed items have a group. */
  lemma CommentGroups(db: Db, itemIds: seq<Option<Id>>)
    ensures var r := GroupBy(Filter(Scan(db.comments), CommentForItems(itemIds)), CommentItemId);
      (forall k :: k in r ==> k in itemIds && k.Some? && |r[k]| > 0)
      && (forall k :: k in itemIds ==> Lookup(r, k) == CommentsOf(db, k))
  {
    var r := GroupBy(Filter(Scan(db.comments), CommentForItems(itemIds)), CommentItemId);
    var found := Filter(Scan(db.comments), CommentForItems(itemIds));
    forall k | k in itemIds
      ensures Lookup(r, k) == CommentsOf(db, k)
    {
      CommentGroupAt(db, itemIds, k);
    }
    forall k | k in r
      ensures k in itemIds && k.Some?
    {
      var group := Filter(found, KeyIs(CommentItemId, k));
      assert Lookup(r, k) == group;
      assert group[0] in group;
    }
  }

  /** The group of one listed item is the comments of that item. */
  lemma CommentGroupAt(db: Db, itemIds: seq<Option<Id>>, k: Option<Id>)
    requires k in itemIds
    ensures Filter(Filter(Scan(db.comments), CommentForItems(itemIds)), KeyIs(CommentItemId, k)) == CommentsOf(db, k)
  {
    var all := Scan(db.comments);
    var p, q := CommentForItems(itemIds), KeyIs(CommentItemId, k);
    FilterFilter(all, p, q);
    forall c: Comment
      ensures Both(p, q)(c) == CommentOf(k)(c)
    {
      assert Both(p, q)(c) == (p(c) && q(c));
      assert q(c) == (CommentItemId(c) == k);
    }
    FilterAgree(all, Both(p, q), CommentOf(k));
  }

  // ---------------------------------------------------------------------
  // Last and next booking

  /** `booking.getStart().isBefore(now)`. */
  function StartedBefore(now: Time): Booking -> bool {
    (b: Booking) => b.start < now
  }

  /** `booking.getStart().isAfter(now)`. */
  function StartsAfter(now: Time): Booking -> bool {
    (b: Booking) => b.start > now
  }

  /** The sort key of `Comparator.comparing(Booking::getStart)`. */
  function StartAsc(b: Booking): int {
    b.start
  }

  /** The stream of `getLastBooking`: of the bookings that started before
      `now`, one with the latest start; none when no booking has started. */
  function Latest(bs: seq<Booking>, now: Time): (r: Option<Booking>)
    ensures r.None? <==> forall b :: b in bs ==> b.start >= now
    ensures r.Some? ==> r.value in bs && r.value.start < now
    ensures r.Some? ==> forall b :: b in bs && b.start < now ==> b.start <= r.value.start
  {
    var started := Filter(bs, StartedBefore(now));
    var sorted := SortBy(started, StartDesc);
    SameElements(sorted, started);
    FirstIsLeast(sorted, StartDesc);
    First(sorted)
  }

  /** The stream of `getNextBooking`: of the bookings that start after
      `now`, one with the earliest start; none when there is no such
      booking. */
  function Earliest(bs: seq<Booking>, now: Time): (r: Option<Booking>)
    ensures r.None? <==> forall b :: b in bs ==> b.start <= now
    ensures r.Some? ==> r.value in bs && r.value.start > now
    ensures r.Some? ==> forall b :: b in bs && b.start > now ==> r.value.start <= b.start
  {
    var upcoming := Filter(bs, StartsAfter(now));
    var sorted := SortBy(upcoming, StartAsc);
    SameElements(sorted, upcoming);
    FirstIsLeast(sorted, StartAsc);
    First(sorted)
  }

  /** A booking that starts exactly at `now` is neither the last nor the
      next one. */
  lemma StartingNowIsNeither(bs: seq<Booking>, now: Time, b: Booking)
    requires b in bs && b.start == now
    ensures Latest(bs, now) != Some(b) && Earliest(bs, now) != Some(b)
  {
  }

  /** `getLastBooking`: the latest started booking of the item's group, or
      `null` when the item has no group. */
  function LastBooking(groups: map<Option<Id>, seq<Booking>>, itemId: Option<Id>, now: Time): (r: Option<Booking>)
    ensures r == Latest(Lookup(groups, itemId), now)
  {
    match GroupAt(groups, itemId)
    case None => None
    case Some(bs) => Latest(bs, now)
  }

  /** `getNextBooking`: the earliest upcoming booking of the item's group,
      or `null` when the item has no group. */
  function NextBooking(groups: map<Option<Id>, seq<Booking>>, itemId: Option<Id>, now: Time): (r: Option<Booking>)
    ensures r == Earliest(Lookup(groups, itemId), now)
  {
    match GroupAt(groups, itemId)
    case None => None
    case Some(bs) => Earliest(bs, now)
  }

  /** `if (booking != null) setLastBooking(toBriefBookingDto(booking))` on a
      fresh DTO. */
  function BriefOf(b: Option<Booking>): (r: Option<BriefBookingDto>)
    ensures r.Some? <==> b.Some?
    ensures r.Some? ==> r.value == BookingMapper.ToBriefBookingDto(b.value)
  {
    match b
    case None => None
    case Some(x) => Some(BookingMapper.ToBriefBookingDto(x))
  }

  // ---------------------------------------------------------------------
  // Reading items

  /** The comment DTOs of one item, in id order. */
  function CommentDtosOf(db: Db, key: Option<Id>): seq<CommentDto> {
    Map(CommentsOf(db, key), CommentMapper.CommentToDto)
  }

  /** Converting a list of comments is mapping each through the DTO mapper. */
  lemma CommentDtoListIsMap(cs: seq<Comment>)
    ensures CommentMapper.ToCommentDtoList(Some(cs)) == Map(cs, CommentMapper.CommentToDto)
  {
    var l := CommentMapper.ToCommentDtoList(Some(cs));
    var r := Map(cs, CommentMapper.CommentToDto);
    assert |l| == |r|;
    forall i | 0 <= i < |l|
      ensures l[i] == r[i]
    {
    }
  }

  /** The DTOs of the group `map.get(key)`, a missing group counting as
      none, are those of the item's comments. */
  lemma GroupedCommentDtos(db: Db, comments: map<Option<Id>, seq<Comment>>, key: Option<Id>)
    requires Lookup(comments, key) == CommentsOf(db, key)
    ensures CommentMapper.ToCommentDtoList(GroupAt(comments, key)) == CommentDtosOf(db, key)
  {
    CommentDtoListIsMap(CommentsOf(db, key));
  }

  /** `get`: NotFound for an unknown item.  Everyone sees the item's fields
      and all its comments (an empty list when it has none); only the owner
      also sees the last and the next approved booking. */
  function GetItem(db: Db, itemId: Id, userId: Id, now: Time): (r: Result<ItemDto>)
    ensures itemId !in db.items.rows ==> r == Err(NotFound)
    ensures r.Ok? <==> itemId in db.items.rows
    ensures r.Ok? ==>
      r.value.(comments := None, lastBooking := None, nextBooking := None) == ItemMapper.ToItemDto(Some(db.items.rows[itemId]))
    ensures r.Ok? ==> r.value.comments == Some(CommentDtosOf(db, Some(itemId)))
    ensures r.Ok? && OwnedBy(db.items.rows[itemId], userId) ==>
      && r.value.lastBooking == BriefOf(Latest(ApprovedBookingsOf(db, Some(itemId)), now))
      && r.value.nextBooking == BriefOf(Earliest(ApprovedBookingsOf(db, Some(itemId)), now))
    ensures r.Ok? && !OwnedBy(db.items.rows[itemId], userId) ==>
      r.value.lastBooking.None? && r.value.nextBooking.None?
  {
    var item :- FindItem(db, itemId);
    var dto := ItemMapper.ToItemDto(Some(item));
    var groups := CommentsByItemIds(db, [Some(itemId)]);
    GroupedCommentDtos(db, groups, Some(itemId));
    var dto := dto.(comments := Some(CommentMapper.ToCommentDtoList(GroupAt(groups, Some(itemId)))));
    if Some(userId) == dto.ownerId then
      var groups := BookingsByItemIds(db, [Some(itemId)]);
      assert Lookup(groups, Some(itemId)) == ApprovedBookingsOf(db, Some(itemId));
      Ok(dto.(lastBooking := BriefOf(LastBooking(groups, Some(itemId), now)),
              nextBooking := BriefOf(NextBooking(groups, Some(itemId), now))))
    else Ok(dto)
  }

  /** `findByOwnerId`: the items of the owner, in table order. */
  function FindByOwner(t: Store<Item>, ownerId: Id): (r: seq<Item>)
    ensures forall i :: i in r <==> i in t.rows.Values && OwnedBy(i, ownerId)
    ensures |r| <= |t.rows|
  {
    Filter(Scan(t), (i: Item) => OwnedBy(i, ownerId))
  }

  /** What the owner's list shows for one item, each part read straight
      from the tables: the item's fields, its last and next approved
      booking, and its comments, or no comment list when it has none. */
  function OwnerView(db: Db, i: Item, now: Time): ItemDto {
    var comments := CommentsOf(db, i.id);
    ItemMapper.ToItemDto(Some(i)).(
      lastBooking := BriefOf(Latest(ApprovedBookingsOf(db, i.id), now)),
      nextBooking := BriefOf(Earliest(ApprovedBookingsOf(db, i.id), now)),
      comments := if |comments| == 0 then None else Some(Map(comments, CommentMapper.CommentToDto)))
  }

  /** The body of the loop in `getByOwner`, for one item, on the groups
      fetched for all the owner's items. */
  function OwnerEntry(i: Item, bookings: map<Option<Id>, seq<Booking>>, comments: map<Option<Id>, seq<Comment>>,
                      now: Time): ItemDto
  {
    var dto := ItemMapper.ToItemDto(Some(i));
    var dto := dto.(lastBooking := BriefOf(LastBooking(bookings, i.id, now)));
    var dto := dto.(nextBooking := BriefOf(NextBooking(bookings, i.id, now)));
    match GroupAt(comments, i.id)
    case None => dto
    case Some(cs) => dto.(comments := Some(CommentMapper.ToCommentDtoList(Some(cs))))
  }

  /** `getByOwner`: one DTO per item of the owner, in table order, each
      carrying exactly its own item's last and next approved booking and
      comments. */
  function GetByOwner(db: Db, ownerId: Id, now: Time): (r: seq<ItemDto>)
    ensures var items := FindByOwner(db.items, ownerId);
      && |r| == |items|
      && forall k :: 0 <= k < |r| ==> r[k] == OwnerView(db, items[k], now)
  {
    var items := FindByOwner(db.items, ownerId);
    var itemIds := Map(items, (i: Item) => i.id);
    var bookings := BookingsByItemIds(db, itemIds);
    var comments := CommentsByItemIds(db, itemIds);
    EntriesAreViews(db, items, itemIds, bookings, comments, now);
    Map(items, (i: Item) => OwnerEntry(i, bookings, comments, now))
  }

  /** Given the groups of the listed items' approved bookings and comments,
      the entry built for each item is its view read from the tables. */
  lemma EntriesAreViews(db: Db, items: seq<Item>, itemIds: seq<Option<Id>>, bookings: map<Option<Id>, seq<Booking>>,
                        comments: map<Option<Id>, seq<Comment>>, now: Time)
    requires itemIds == Map(items, (i: Item) => i.id)
    requires forall k :: k in itemIds ==> Lookup(bookings, k) == ApprovedBookingsOf(db, k)
    requires forall k :: k in itemIds ==> Lookup(comments, k) == CommentsOf(db, k)
    requires forall k :: k in comments ==> |comments[k]| > 0
    ensures forall k :: 0 <= k < |items| ==> OwnerEntry(items[k], bookings, comments, now) == OwnerView(db, items[k], now)
  {
    forall k | 0 <= k < |items|
      ensures OwnerEntry(items[k], bookings, comments, now) == OwnerView(db, items[k], now)
    {
      assert itemIds[k] == items[k].id;
      assert items[k].id in itemIds;
      OwnerEntryIsView(db, items[k], bookings, comments, now);
    }
  }

  /** When the groups hold the item's own approved bookings and comments,
      the entry built from them is the view read straight from the
      tables. */
  lemma OwnerEntryIsView(db: Db, i: Item, bookings: map<Option<Id>, seq<Booking>>,
                         comments: map<Option<Id>, seq<Comment>>, now: Time)
    requires Lookup(bookings, i.id) == ApprovedBookingsOf(db, i.id)
    requires Lookup(comments, i.id) == CommentsOf(db, i.id)
    requires i.id in comments ==> |comments[i.id]| > 0
    ensures OwnerEntry(i, bookings, comments, now) == OwnerView(db, i, now)
  {
    var bs := ApprovedBookingsOf(db, i.id);
    assert LastBooking(bookings, i.id, now) == Latest(bs, now);
    assert NextBooking(bookings, i.id, now) == Earliest(bs, now);
    var cs := CommentsOf(db, i.id);
    var base := ItemMapper.ToItemDto(Some(i)).(lastBooking := BriefOf(Latest(bs, now)),
                                                nextBooking := BriefOf(Earliest(bs, now)));
    if i.id in comments {
      CommentDtoListIsMap(cs);
      assert OwnerEntry(i, bookings, comments, now) == base.(comments := Some(Map(cs, CommentMapper.CommentToDto)));
    } else {
      assert |cs| == 0;
      assert OwnerEntry(i, bookings, comments, now) == base;
    }
  }

  // ---------------------------------------------------------------------
  // Search

  /** `lower(field) LIKE lower('%text%')`; a `null` field never matches. */
  predicate FieldMatches(field: Option<string>, text: string) {
    field.Some? && Contains(Lower(field.value), Lower(text))
  }

  /** The condition of `findNameOrDescriptionContainingText`: the item is
      available and its name or its description contains the text, case
      ignored. */
  predicate Found(i: Item, text: string) {
    IsAvailable(i) && (FieldMatches(i.name, text) || FieldMatches(i.description, text))
  }

  /** `findNameOrDescriptionContainingText`, in table order. */
  function FindContainingText(t: Table<Item>, text: string): (r: seq<Item>)
    ensures forall i :: i in r <==> i in t.rows.Values && Found(i, text)
    ensures |r| <= |t.rows|
  {
    Filter(Scan(t), (i: Item) => Found(i, text))
  }

  /** `search`: nothing for a `null` or blank text, without a query;
      otherwise the DTOs of exactly the available items whose name or
      description contains the text, case ignored.  The caller's id plays
      no part. */
  function Search(db: Db, ownerId: Id, text: Option<string>): (r: seq<ItemDto>)
    ensures text.None? || IsBlank(text.value) ==> r == []
    ensures |r| <= |db.items.rows|
    ensures text.Some? ==> forall k :: 0 <= k < |r| ==>
      && r[k].available == Some(true)
      && (FieldMatches(r[k].name, text.value) || FieldMatches(r[k].description, text.value))
    ensures text.Some? ==> forall k :: 0 <= k < |r| ==> ShowsFound(db.items, text.value, r[k])
    ensures text.Some? && !IsBlank(text.value) ==>
      forall i :: i in db.items.rows.Values && Found(i, text.value) ==> ItemMapper.ToItemDto(Some(i)) in r
  {
    if text.None? || IsBlank(text.value) then [] else SearchText(db.items, text.value)
  }

  /** `d` is the DTO of a stored item found for the text. */
  predicate ShowsFound(t: Table<Item>, text: string, d: ItemDto) {
    exists i :: i in t.rows.Values && Found(i, text) && d == ItemMapper.ToItemDto(Some(i))
  }

  /** The query and mapping of `search` for a text that is not blank: the
      DTOs of exactly the stored items found for the text. */
  function SearchText(t: Table<Item>, text: string): (r: seq<ItemDto>)
    ensures |r| <= |t.rows|
    ensures forall k :: 0 <= k < |r| ==>
      && r[k].available == Some(true)
      && (FieldMatches(r[k].name, text) || FieldMatches(r[k].description, text))
    ensures forall k :: 0 <= k < |r| ==> ShowsFound(t, text, r[k])
    ensures forall i :: i in t.rows.Values && Found(i, text) ==> ItemMapper.ToItemDto(Some(i)) in r
  {
    var found := FindContainingText(t, text);
    SearchedDtos(t, text, found);
    ItemMapper.ToItemsDto(Some(found))
  }

  /** The DTOs of the found items are exactly those of the matching items,
      and each shows an available item whose name or description matches. */
  lemma SearchedDtos(t: Table<Item>, text: string, found: seq<Item>)
    requires found == FindContainingText(t, text)
    ensures var r := ItemMapper.ToItemsDto(Some(found));
      && |r| <= |t.rows|
      && (forall k :: 0 <= k < |r| ==>
            && r[k].available == Some(true)
            && (FieldMatches(r[k].name, text) || FieldMatches(r[k].description, text)))
      && (forall k :: 0 <= k < |r| ==> exists i ::
            i in t.rows.Values && Found(i, text) && r[k] == ItemMapper.ToItemDto(Some(i)))
      && (forall i :: i in t.rows.Values && Found(i, text) ==> ItemMapper.ToItemDto(Some(i)) in r)
  {
    FoundDtosMatch(found, text);
    FoundDtosStored(t.rows.Values, found, text);
    FoundDtosComplete(t.rows.Values, found, text);
  }

  /** The DTO of each found item shows an available item whose name or
      description matches. */
  lemma FoundDtosMatch(found: seq<Item>, text: string)
    requires forall i :: i in found ==> Found(i, text)
    ensures var r := ItemMapper.ToItemsDto(Some(found));
      forall k :: 0 <= k < |r| ==>
        && r[k].available == Some(true)
        && (FieldMatches(r[k].name, text) || FieldMatches(r[k].description, text))
  {
    var r := ItemMapper.ToItemsDto(Some(found));
    forall k | 0 <= k < |r|
      ensures r[k].available == Some(true)
      ensures FieldMatches(r[k].name, text) || FieldMatches(r[k].description, text)
    {
      assert found[k] in found;
      assert r[k] == ItemMapper.ToItemDto(Some(found[k]));
    }
  }

  /** Each DTO of found stored items is the DTO of one of them. */
  lemma FoundDtosStored(stored: set<Item>, found: seq<Item>, text: string)
    requires forall i :: i in found ==> i in stored && Found(i, text)
    ensures var r := ItemMapper.ToItemsDto(Some(found));
      forall k :: 0 <= k < |r| ==> exists i :: i in stored && Found(i, text) && r[k] == ItemMapper.ToItemDto(Some(i))
  {
    var r := ItemMapper.ToItemsDto(Some(found));
    forall k | 0 <= k < |r|
      ensures exists i :: i in stored && Found(i, text) && r[k] == ItemMapper.ToItemDto(Some(i))
    {
      assert found[k] in found;
      assert r[k] == ItemMapper.ToItemDto(Some(found[k]));
    }
  }

  /** Every matching item found has its DTO listed. */
  lemma FoundDtosComplete(stored: set<Item>, found: seq<Item>, text: string)
    requires forall i :: i in stored && Found(i, text) ==> i in found
    ensures forall i :: i in stored && Found(i, text) ==> ItemMapper.ToItemDto(Some(i)) in ItemMapper.ToItemsDto(Some(found))
  {
    var r := ItemMapper.ToItemsDto(Some(found));
    forall i | i in stored && Found(i, text)
      ensures ItemMapper.ToItemDto(Some(i)) in r
    {
      var k :| 0 <= k < |found| && found[k] == i;
      assert r[k] == ItemMapper.ToItemDto(Some(i));
    }
  }

  // ---------------------------------------------------------------------
  // Comments

  /** The comment gate: the user has an approved booking of the item that
      ended before `now`. */
  predicate MayComment(db: Db, userId: Id, itemId: Id, now: Time) {
    exists b :: b in db.bookings.rows.Values
      && b.booker.id == Some(userId) && b.item.id == Some(itemId) && b.end < now && b.status == Approved
  }

  /** `createComment`: NotFound for an unknown user, then for an unknown
      item; BadRequest unless the user has an approved booking of the item
      that ended before `now`.  Otherwise the comment is saved under a
      fresh id with the request's text, the user as author, the item, and
      `now` as its creation time. */
  function CreateComment(db: Db, itemId: Id, userId: Id, d: CommentDto, now: Time): (r: Result<(Db, CommentDto)>)
    ensures userId !in db.users.rows ==> r == Err(NotFound)
    ensures userId in db.users.rows && itemId !in db.items.rows ==> r == Err(NotFound)
    ensures userId in db.users.rows && itemId in db.items.rows && !MayComment(db, userId, itemId, now)
      ==> r == Err(BadRequest)
    ensures r.Ok? <==> userId in db.users.rows && itemId in db.items.rows && MayComment(db, userId, itemId, now)
    ensures r.Ok? ==>
      var user := db.users.rows[userId];
      var stored := Comment(db.comments.nextId, d.text, Some(db.items.rows[itemId]), Some(user), Some(now));
      && r.value.0.comments.rows == db.comments.rows[db.comments.nextId := stored]
      && r.value.0.comments.nextId == db.comments.nextId + 1
      && r.value.0 == db.(comments := r.value.0.comments)
      && r.value.1 == CommentDto(Some(db.comments.nextId), d.text, user.name, Some(now))
  {
    var user :- FindUser(db, userId);
    var item :- FindItem(db, itemId);
    var created := now;
    var ended := FindEndedWithStatus(db.bookings, userId, itemId, created, Approved);
    GateIsQuery(db, userId, itemId, now);
    if |ended| == 0 then Err(BadRequest)
    else
      var comment := CommentMapper.ToComment(Some(d), user, item, created);
      var (comments, saved) := Storage.Create(db.comments, comment, CommentWithId);
      assert saved == Comment(db.comments.nextId, d.text, Some(item), Some(user), Some(now));
      Ok((db.(comments := comments), CommentMapper.ToCommentDto(Some(saved))))
  }

  /** The gate query finds a booking exactly when the user may comment. */
  lemma GateIsQuery(db: Db, userId: Id, itemId: Id, now: Time)
    ensures |FindEndedWithStatus(db.bookings, userId, itemId, now, Approved)| > 0 <==> MayComment(db, userId, itemId, now)
  {
    var ended := FindEndedWithStatus(db.bookings, userId, itemId, now, Approved);
    if |ended| > 0 {
      assert ended[0] in ended;
    }
  }
}

=== FILE: legacy_booking_service.dfy ===
/** The booking service of the older, unpaged application.  Its `create`
    and `get` perform the same checks in the same order as the server's, so
    `BookingService.CreateAsWritten` models both `create`s as written,
    `BookingService.Create` their intended behaviour, and
    `BookingService.Get` both `get`s; `approve` and the listings differ and
    are modelled here. */
module LegacyBookingService {
  import opened Wrappers
  import opened Storage
  import opened Domain
  import opened Dto
  import opened Paging
  import opened BookingRepository
  import opened Seqs
  import BookingMapper
  import BookingService

  /** `approve` of the older application: only bookings already approved or
      rejected are refused, so a waiting or a canceled booking can be
      decided.  Otherwise as the server's: NotFound, then Forbidden for
      anyone but the item's owner. */
  function Approve(db: Db, bookingId: Id, userId: Id, approved: bool): (r: Result<(Db, BookingDto)>)
    ensures bookingId !in db.bookings.rows ==> r == Err(NotFound)
    ensures bookingId in db.bookings.rows && !OwnedBy(db.bookings.rows[bookingId].item, userId) ==> r == Err(Forbidden)
    ensures (bookingId in db.bookings.rows && OwnedBy(db.bookings.rows[bookingId].item, userId)
             && db.bookings.rows[bookingId].status in {Approved, Rejected}) ==> r == Err(Validation)
    ensures r.Ok? <==> (bookingId in db.bookings.rows && OwnedBy(db.bookings.rows[bookingId].item, userId)
                        && db.bookings.rows[bookingId].status in {Waiting, Canceled})
    ensures r.Ok? ==> BookingService.Decided(db, r.value.0, r.value.1, bookingId, approved)
  {
    var b :- FindBooking(db, bookingId);
    if !OwnedBy(b.item, userId) then Err(Forbidden)
    else if b.status == Approved || b.status == Rejected then Err(Validation)
    else Ok(BookingService.SetDecision(db, bookingId, b, approved))
  }

  /** The two `approve` variants give the same outcome on every input except
      the owner deciding a canceled booking, which only the older one
      accepts. */
  lemma ApproveVariantsDiffer(db: Db, bookingId: Id, userId: Id, approved: bool)
    ensures Approve(db, bookingId, userId, approved) != BookingService.Approve(db, bookingId, userId, approved)
      <==> (bookingId in db.bookings.rows && OwnedBy(db.bookings.rows[bookingId].item, userId)
            && db.bookings.rows[bookingId].status == Canceled)
  {
  }

  /** A decided booking cannot be decided again by the older variant either. */
  lemma ApproveTwiceFails(db: Db, bookingId: Id, userId: Id, approved: bool, again: bool)
    requires Approve(db, bookingId, userId, approved).Ok?
    ensures Approve(Approve(db, bookingId, userId, approved).value.0, bookingId, userId, again) == Err(Validation)
  {
  }

  /** `getByBookerId` and `getByOwnerId` of the older application: the user
      must exist and the status be supported; the result is every stored
      booking of the user that meets the status, newest first. */
  function ListBookings(db: Db, party: Party, userId: Id, status: SearchStatus, now: Time)
    : (r: Result<seq<BookingDto>>)
    ensures userId !in db.users.rows ==> r == Err(NotFound)
    ensures userId in db.users.rows && status == UnsupportedStatus ==> r == Err(UnknownState)
    ensures r.Ok? <==> userId in db.users.rows && status != UnsupportedStatus
    ensures r.Ok? ==> forall i, j :: 0 <= i < j < |r.value| ==> r.value[i].start >= r.value[j].start
    ensures r.Ok? ==> forall b ::
      (b in db.bookings.rows.Values && Involves(b, party, userId) && MeetsSearch(status, b, now))
      ==> BookingMapper.ToBookingDto(b) in r.value
    ensures r.Ok? ==> forall i :: 0 <= i < |r.value| ==> exists b ::
      && b in db.bookings.rows.Values
      && Involves(b, party, userId)
      && MeetsSearch(status, b, now)
      && r.value[i] == BookingMapper.ToBookingDto(b)
    ensures r.Ok? ==> |r.value| == |Filter(Scan(db.bookings), (b: Booking) => Involves(b, party, userId) && MeetsSearch(status, b, now))|
  {
    var _ :- FindUser(db, userId);
    match Classify(status)
    case None => Err(UnknownState)
    case Some(c) =>
      var bs := FindAll(db.bookings, party, userId, c, now);
      BookingService.ListedBookings(db, party, userId, status, c, now, bs);
      CompleteListing(db, party, userId, status, c, now, bs);
      ListsEachOnce(db, party, userId, status, c, now);
      Ok(BookingMapper.ToBookingDtoList(bs))
  }

  /** A listing that holds every matching booking holds the DTO of each. */
  lemma CompleteListing(db: Db, party: Party, userId: Id, status: SearchStatus, c: Condition, now: Time, bs: seq<Booking>)
    requires Classify(status) == Some(c)
    requires forall b :: b in db.bookings.rows.Values && Involves(b, party, userId) && Holds(c, b, now) ==> b in bs
    ensures forall b ::
      (b in db.bookings.rows.Values && Involves(b, party, userId) && MeetsSearch(status, b, now))
      ==> BookingMapper.ToBookingDto(b) in BookingMapper.ToBookingDtoList(bs)
  {
    var dtos := BookingMapper.ToBookingDtoList(bs);
    forall b | b in db.bookings.rows.Values && Involves(b, party, userId) && MeetsSearch(status, b, now)
      ensures BookingMapper.ToBookingDto(b) in dtos
    {
      ClassifyMeetsSearch(status, b, now);
      var i :| 0 <= i < |bs| && bs[i] == b;
      assert dtos[i] == BookingMapper.ToBookingDto(b);
    }
  }

  /** The query of a supported status selects as many bookings as meet the
      status, so a listing of its result holds each matching booking once. */
  lemma ListsEachOnce(db: Db, party: Party, userId: Id, status: SearchStatus, c: Condition, now: Time)
    requires Classify(status) == Some(c)
    ensures |FindAll(db.bookings, party, userId, c, now)|
      == |Filter(Scan(db.bookings), (b: Booking) => Involves(b, party, userId) && MeetsSearch(status, b, now))|
  {
    var query := Selects(party, userId, c, now);
    var meets := (b: Booking) => Involves(b, party, userId) && MeetsSearch(status, b, now);
    forall b | b in Scan(db.bookings)
      ensures query(b) == meets(b)
    {
      ClassifyMeetsSearch(status, b, now);
    }
    FilterAgree(Scan(db.bookings), query, meets);
    var r := FindAll(db.bookings, party, userId, c, now);
    assert |r| == |multiset(r)| == |multiset(Filter(Scan(db.bookings), query))|;
  }

  /** Converting a page of bookings equals taking the page of the converted
      list. */
  lemma SliceOfDtos(bs: seq<Booking>, p: PageRequest)
    ensures BookingMapper.ToBookingDtoList(Slice(bs, p)) == Slice(BookingMapper.ToBookingDtoList(bs), p)
  {
    var l := BookingMapper.ToBookingDtoList(Slice(bs, p));
    var r := Slice(BookingMapper.ToBookingDtoList(bs), p);
    assert |l| == |r|;
    forall i | 0 <= i < |l|
      ensures l[i] == r[i]
    {
    }
  }

  /** The server's paged listing is the page, at `from / size`, of the older
      application's unpaged listing: paging only cuts a window out of the
      same ordered result. */
  lemma PagedIsWindowOfUnpaged(db: Db, party: Party, userId: Id, status: SearchStatus, from: int, size: int, now: Time)
    requires from >= 0 && size >= 1
    ensures var paged := BookingService.ListBookings(db, party, userId, status, from, size, now);
      var whole := ListBookings(db, party, userId, status, now);
      && (paged.Ok? <==> whole.Ok?)
      && (paged.Err? ==> paged == whole)
      && (paged.Ok? ==> paged.value == Slice(whole.value, PageSettings(from, size, SortStartDateDesc)))
  {
    if userId in db.users.rows && status != UnsupportedStatus {
      var c := Classify(status).value;
      var bs := FindAll(db.bookings, party, userId, c, now);
      SliceOfDtos(bs, PageSettings(from, size, SortStartDateDesc));
    }
  }
}

=== FILE: legacy_user_service.dfy ===
/** The user service of the older application, on the in-memory user
    store: names and emails are kept unique by a check before every write. */
module LegacyUserService {
  import opened Wrappers
  import opened Storage
  import opened Domain
  import opened Seqs
  import opened InMemoryStorage

  /** Stored user `u` stands in the way of writing `user`: it is a
      different user (by id) with the same name or the same email. */
  predicate Clashes(u: User, user: User) {
    u.id != user.id && (SameText(user.name, u.name) || SameText(user.email, u.email))
  }

  /** The filter `validate` applies to each lookup: a user other than
      `user`, by id. */
  function Other(user: User): User -> bool {
    (u: User) => u.id != user.id
  }

  /** The stored users other than `user` whose field equals that of `user`. */
  function OthersWith(s: Store<User>, user: User, f: UserField): seq<User> {
    Filter(UsersWith(s, f, FieldOf(user, f)), Other(user))
  }

  /** `validate`: DataAlreadyExist when some stored user other than `user`
      itself has its name or its email. */
  function Validate(s: Store<User>, user: User): (r: Result<bool>)
    ensures r.Err? <==> exists u :: u in s.rows.Values && Clashes(u, user)
    ensures r.Err? ==> r.error == DataAlreadyExist
    ensures r.Ok? ==> r.value
  {
    ValidateFindsClashes(s, user);
    if |OthersWith(s, user, ByName)| > 0 || |OthersWith(s, user, ByEmail)| > 0 then Err(DataAlreadyExist) else Ok(true)
  }

  /** The two filtered lookups of `validate` find something exactly when
      some stored user clashes. */
  lemma ValidateFindsClashes(s: Store<User>, user: User)
    ensures |OthersWith(s, user, ByName)| > 0 || |OthersWith(s, user, ByEmail)| > 0
      <==> exists u :: u in s.rows.Values && Clashes(u, user)
  {
    var withName := OthersWith(s, user, ByName);
    var withEmail := OthersWith(s, user, ByEmail);
    var byName := UsersWith(s, ByName, user.name);
    var byEmail := UsersWith(s, ByEmail, user.email);
    if |withName| > 0 {
      var u := withName[0];
      assert u in byName && u.id != user.id;
      assert Clashes(u, user);
    } else if |withEmail| > 0 {
      var u := withEmail[0];
      assert u in byEmail && u.id != user.id;
      assert Clashes(u, user);
    } else {
      forall u | u in s.rows.Values
        ensures !Clashes(u, user)
      {
        if u.id != user.id {
          assert u !in withName && u !in withEmail;
          assert u !in byName && u !in byEmail;
        }
      }
    }
  }

  /** No two stored users share a name or an email. */
  predicate Unique(s: Store<User>) {
    forall a, b :: a in s.rows && b in s.rows && a != b ==>
      !SameText(s.rows[a].name, s.rows[b].name) && !SameText(s.rows[a].email, s.rows[b].email)
  }

  /** Every stored user carries its key as its id, as `create` leaves it. */
  predicate KeyedById(s: Store<User>) {
    forall k :: k in s.rows ==> s.rows[k].id == Some(k)
  }

  /** The store invariant of the user service. */
  predicate Valid(s: Store<User>) {
    IdsBelowCounter(s) && KeyedById(s) && Unique(s)
  }

  /** `create` as written: the uniqueness check leaves out stored users with
      the id the request carries, but the user is then stored under a fresh
      id, so a request that repeats an existing user's id, name and email
      creates a second user with that name and email. */
  function CreateAsWritten(s: Store<User>, user: User): (r: Result<(Store<User>, User)>)
    ensures r.Err? <==> exists u :: u in s.rows.Values && Clashes(u, user)
    ensures r.Ok? ==> r.value == Storage.Create(s, user, UserWithId)
  {
    var _ :- Validate(s, user);
    Ok(Storage.Create(s, user, UserWithId))
  }

  /** The counterexample: with Ann stored under id 1, a request carrying id
      1 and Ann's name and email passes the check and stores her again
      under id 2, breaking uniqueness.  The corrected `Create` refuses it. */
  lemma CreateAsWrittenDuplicates()
    ensures var ann := User(Some(1), Some("ann"), Some("ann@mail"));
      var s := Store(map[1 := ann], 2);
      && Valid(s)
      && CreateAsWritten(s, ann).Ok?
      && !Unique(CreateAsWritten(s, ann).value.0)
      && Create(s, ann) == Err(DataAlreadyExist)
  {
    var ann := User(Some(1), Some("ann"), Some("ann@mail"));
    var s := Store(map[1 := ann], 2);
    assert s.rows[1] == ann;
    assert Clashes(ann, ann.(id := None));
    var s2 := CreateAsWritten(s, ann).value.0;
    assert s2.rows[1].name == s2.rows[2].name;
  }

  /** `create`, checked against every stored user, since the user gets a
      fresh id: DataAlreadyExist when any stored user has the same name or
      email; otherwise the user is stored under the counter's id. */
  function Create(s: Store<User>, user: User): (r: Result<(Store<User>, User)>)
    ensures r.Err? <==> exists u :: u in s.rows.Values && u.id.Some? && (SameText(user.name, u.name) || SameText(user.email, u.email))
    ensures r.Err? ==> r.error == DataAlreadyExist
    ensures r.Ok? ==> r.value.1 == user.(id := Some(s.nextId))
    ensures r.Ok? ==> r.value.0.rows == s.rows[s.nextId := r.value.1] && r.value.0.nextId == s.nextId + 1
  {
    var _ :- Validate(s, user.(id := None));
    Ok(Storage.Create(s, user, UserWithId))
  }

  /** `get`: the stored user, or NotFound. */
  function GetUser(s: Store<User>, id: Id): (r: Result<User>)
    ensures r.Ok? <==> id in s.rows
    ensures r.Ok? ==> r.value == s.rows[id]
    ensures r.Err? ==> r.error == NotFound
  {
    match Get(s, id)
    case None => Err(NotFound)
    case Some(u) => Ok(u)
  }

  /** `fillUserInfoForUpdate`: the request takes the stored user's id, and
      its stored name or email wherever the request leaves them `null`. */
  function Fill(existing: User, user: User): (r: User)
    ensures r.id == existing.id
    ensures r.name == (if user.name.None? then existing.name else user.name)
    ensures r.email == (if user.email.None? then existing.email else user.email)
    ensures user.name.Some? ==> r.name == user.name
    ensures user.email.Some? ==> r.email == user.email
  {
    var u := user.(id := existing.id);
    var u := if u.name.None? then u.(name := existing.name) else u;
    if u.email.None? then u.(email := existing.email) else u
  }

  /** `data.getId()` unboxed to a key; only applied to users whose id is
      set. */
  function Key(u: User): Id {
    u.id.GetOr(0)
  }

  /** `update`: NotFound for an unknown id, before anything else; the
      request is filled from the stored user, checked against every other
      user, and written under the stored user's id. */
  function Update(s: Store<User>, id: Id, user: User): (r: Result<(Store<User>, User)>)
    ensures id !in s.rows ==> r == Err(NotFound)
    ensures id in s.rows ==>
      var filled := Fill(s.rows[id], user);
      && ((exists u :: u in s.rows.Values && Clashes(u, filled)) ==> r == Err(DataAlreadyExist))
      && (KeyedById(s) ==> (r.Ok? <==> !exists u :: u in s.rows.Values && Clashes(u, filled)))
    ensures r.Ok? ==>
      var filled := Fill(s.rows[id], user);
      && filled.id.Some?
      && r.value.1 == filled
      && r.value.0.rows == s.rows[filled.id.value := filled]
      && r.value.0.nextId == s.nextId
  {
    var existing :- GetUser(s, id);
    var filled := Fill(existing, user);
    var _ :- Validate(s, filled);
    if filled.id.None? then Err(NullId)
    else Ok(Storage.Update(s, filled, Key))
  }

  /** `delete`: NotFound for an unknown id; otherwise the user is removed
      and every other stored user stays. */
  function DeleteUser(s: Store<User>, id: Id): (r: Result<Store<User>>)
    ensures id !in s.rows ==> r == Err(NotFound)
    ensures r.Ok? <==> id in s.rows
    ensures r.Ok? && KeyedById(s) ==> id !in r.value.rows && forall k :: k != id ==> Get(r.value, k) == Get(s, k)
    ensures r.Ok? ==> r.value.nextId == s.nextId
  {
    var existing :- GetUser(s, id);
    match existing.id
    case None => Ok(s)
    case Some(k) => Ok(Storage.Delete(s, k))
  }

  /** `create` of a user whose name and email no stored user has succeeds
      and keeps the store valid. */
  lemma CreateKeepsValid(s: Store<User>, user: User)
    requires Valid(s)
    requires forall u :: u in s.rows.Values ==> !SameText(user.name, u.name) && !SameText(user.email, u.email)
    ensures Create(s, user).Ok?
    ensures Valid(Create(s, user).value.0)
  {
    var n := s.nextId;
    var added := user.(id := Some(n));
    forall k | k in s.rows
      ensures !SameText(added.name, s.rows[k].name) && !SameText(added.email, s.rows[k].email)
    {
      assert s.rows[k] in s.rows.Values;
    }
    AddKeepsValid(s, added);
    var r := Create(s, user);
    assert r.Ok?;
    assert r.value.0 == Store(s.rows[n := added], n + 1);
  }

  /** Storing a user under the counter's id, when it shares neither name
      nor email with any stored user, keeps the store valid. */
  lemma AddKeepsValid(s: Store<User>, u: User)
    requires Valid(s) && u.id == Some(s.nextId)
    requires forall k :: k in s.rows ==> !SameText(u.name, s.rows[k].name) && !SameText(u.email, s.rows[k].email)
    ensures Valid(Store(s.rows[s.nextId := u], s.nextId + 1))
  {
    var n := s.nextId;
    var s2 := Store(s.rows[n := u], n + 1);
    assert n !in s.rows;
    forall a, b | a in s2.rows && b in s2.rows && a != b
      ensures !SameText(s2.rows[a].name, s2.rows[b].name) && !SameText(s2.rows[a].email, s2.rows[b].email)
    {
      if a != n && b != n {
        assert s2.rows[a] == s.rows[a] && s2.rows[b] == s.rows[b];
      }
    }
  }

  /** `update` of a stored user, filled from the request, that clashes with
      no other stored user succeeds and keeps the store valid. */
  lemma UpdateKeepsValid(s: Store<User>, id: Id, user: User)
    requires Valid(s) && id in s.rows
    requires forall u :: u in s.rows.Values ==> !Clashes(u, Fill(s.rows[id], user))
    ensures Update(s, id, user).Ok?
    ensures Valid(Update(s, id, user).value.0)
  {
    var filled := Fill(s.rows[id], user);
    forall k | k in s.rows && k != id
      ensures !SameText(filled.name, s.rows[k].name) && !SameText(filled.email, s.rows[k].email)
    {
      assert s.rows[k] in s.rows.Values;
      assert s.rows[k].id == Some(k) != filled.id;
    }
    ReplaceKeepsValid(s, id, filled);
  }

  /** Replacing a stored user by one with the same id that shares neither
      name nor email with any other stored user keeps the store valid. */
  lemma ReplaceKeepsValid(s: Store<User>, id: Id, u: User)
    requires Valid(s) && id in s.rows && u.id == Some(id)
    requires forall k :: k in s.rows && k != id ==> !SameText(u.name, s.rows[k].name) && !SameText(u.email, s.rows[k].email)
    ensures Valid(s.(rows := s.rows[id := u]))
  {
    var s2 := s.(rows := s.rows[id := u]);
    forall a, b | a in s2.rows && b in s2.rows && a != b
      ensures !SameText(s2.rows[a].name, s2.rows[b].name) && !SameText(s2.rows[a].email, s2.rows[b].email)
    {
      if a != id && b != id {
        assert s2.rows[a] == s.rows[a] && s2.rows[b] == s.rows[b];
      }
    }
  }

  /** Re-saving a stored user unchanged passes the check: the check leaves
      the user's own id out. */
  lemma ResaveUnchanged(s: Store<User>, id: Id)
    requires Valid(s) && id in s.rows
    ensures Update(s, id, s.rows[id]).Ok?
  {
    var u := s.rows[id];
    assert Fill(u, u) == u;
    forall v | v in s.rows.Values
      ensures !Clashes(v, u)
    {
      if forall k :: k in s.rows ==> s.rows[k] != v {
        assert false;  // `v` is one of the values
      }
      var k :| k in s.rows && s.rows[k] == v;
    }
  }
}

=== FILE: paging.dfy ===
/** Offset-based paging on top of Spring's page-index requests. */
module Paging {

  datatype Direction = Asc | Desc

  /** `Sort.by(direction, property)`. */
  datatype Sort = Sort(direction: Direction, property: string)

  /** The bookings' order: newest start first. */
  const SortStartDateDesc := Sort(Desc, "start")

  /** The requests' order: oldest first. */
  const SortCreateDateAsc := Sort(Asc, "created")

  /** A page index, a page length and an order. */
  datatype PageRequest = PageRequest(page: nat, size: nat, sort: Sort)

  /** `new PageSettings(from, size, sort)`: the page that contains the
      element at offset `from`.  The controllers admit only `from >= 0`
      and `size >= 1`. */
  function PageSettings(from: int, size: int, sort: Sort): (p: PageRequest)
    requires from >= 0 && size >= 1
    ensures p.size == size && p.sort == sort
    ensures p.page * size <= from < p.page * size + size
    ensures p.page * size == from - from % size
    ensures from % size == 0 ==> p.page * size == from
    ensures from < size ==> p.page == 0
  {
    PageRequest(from / size, size, sort)
  }

  /** The first element a page request skips to. */
  function Offset(p: PageRequest): nat {
    p.page * p.size
  }

  /** The elements of `xs` on page `p`: at most `size` of them, starting at
      the page's offset. */
  function Slice<T>(xs: seq<T>, p: PageRequest): (r: seq<T>)
    ensures |r| == if Offset(p) >= |xs| then 0
                   else if |xs| - Offset(p) < p.size then |xs| - Offset(p)
                   else p.size
    ensures forall i :: 0 <= i < |r| ==> Offset(p) + i < |xs| && r[i] == xs[Offset(p) + i]
  {
    var lo := if Offset(p) < |xs| then Offset(p) else |xs|;
    var hi := if lo + p.size < |xs| then lo + p.size else |xs|;
    xs[lo..hi]
  }
}

=== FILE: request_mapper.dfy ===
/** Conversions between item requests and their transfer objects. */
module RequestMapper {
  import opened Wrappers
  import opened Storage
  import opened Domain
  import opened Dto
  import ItemMapper
  import Seqs

  /** `new ItemRequest()`. */
  const BlankRequest := ItemRequest(None, None, None, None)

  /** `toItemRequest`: for `null` a blank request; otherwise the DTO's id,
      description and creation time.  The requester is never set. */
  function ToItemRequest(d: Option<ItemRequestDto>): (r: ItemRequest)
    ensures d.None? ==> r == BlankRequest
    ensures d.Some? ==> r.id == d.value.id && r.description == d.value.description && r.created == d.value.created
    ensures r.requester.None?
  {
    match d
    case None => BlankRequest
    case Some(dto) => ItemRequest(dto.id, dto.description, None, dto.created)
  }

  /** `toItemRequestDto`: for `null` an empty DTO; otherwise the request's
      id, description and creation time, with no items. */
  function ToItemRequestDto(r: Option<ItemRequest>): (d: ItemRequestDto)
    ensures r.None? ==> d == EmptyItemRequestDto
    ensures r.Some? ==> d.id == r.value.id && d.description == r.value.description && d.created == r.value.created
    ensures d.items.None?
  {
    match r
    case None => EmptyItemRequestDto
    case Some(q) => ItemRequestDto(q.id, q.description, q.created, None)
  }

  /** The id of the request an item answers, as the grouping key. */
  function RequestIdOf(i: Item): Option<Id> {
    if i.request.Some? then i.request.value.id else None
  }

  /** One request with the DTOs of the items grouped under its id. */
  function WithItems(q: ItemRequest, groups: map<Option<Id>, seq<Item>>): (d: ItemRequestDto)
    ensures d.id == q.id && d.description == q.description && d.created == q.created
    ensures d.items == Some(ItemMapper.ToItemsDto(Some(Seqs.Lookup(groups, q.id))))
  {
    ToItemRequestDto(Some(q)).(items := Some(ItemMapper.ToItemsDto(Some(Seqs.Lookup(groups, q.id)))))
  }

  /** `toItemRequestDtoList`: one DTO per request, in order, each carrying
      the items grouped under that request's id (none when the id has no
      group). */
  function ToItemRequestDtoList(requests: seq<ItemRequest>, groups: map<Option<Id>, seq<Item>>): (r: seq<ItemRequestDto>)
    ensures |r| == |requests|
    ensures forall i :: 0 <= i < |r| ==>
      && r[i].id == requests[i].id
      && r[i].description == requests[i].description
      && r[i].created == requests[i].created
      && r[i].items == Some(ItemMapper.ToItemsDto(Some(Seqs.Lookup(groups, requests[i].id))))
  {
    Seqs.Map(requests, q => WithItems(q, groups))
  }

  /** The round trip keeps id, description and creation time. */
  lemma RequestRoundTrip(d: ItemRequestDto)
    ensures ToItemRequestDto(Some(ToItemRequest(Some(d)))) == d.(items := None)
  {
  }
}

=== FILE: request_service.dfy ===
/** The item-request service: users ask for items they need, and each
    request is shown with the items offered in answer to it. */
module RequestService {
  import opened Wrappers
  import opened Storage
  import opened Domain
  import opened Dto
  import opened Paging
  import opened Seqs
  import RequestMapper
  import ItemMapper

  /** `create`: the requester must exist; the request is saved under a
      fresh id with that requester and `now` as its creation time. */
  function CreateRequest(db: Db, d: ItemRequestDto, requesterId: Id, now: Time): (r: Result<(Db, ItemRequestDto)>)
    ensures requesterId !in db.users.rows ==> r == Err(NotFound)
    ensures r.Ok? <==> requesterId in db.users.rows
    ensures r.Ok? ==>
      var stored := ItemRequest(Some(db.requests.nextId), d.description, Some(db.users.rows[requesterId]), Some(now));
      && r.value.0.requests.rows == db.requests.rows[db.requests.nextId := stored]
      && r.value.0.requests.nextId == db.requests.nextId + 1
      && r.value.0 == db.(requests := r.value.0.requests)
      && r.value.1 == ItemRequestDto(Some(db.requests.nextId), d.description, Some(now), None)
  {
    var requester :- FindUser(db, requesterId);
    var request := RequestMapper.ToItemRequest(Some(d)).(requester := Some(requester), created := Some(now));
    var (requests, saved) := Storage.Create(db.requests, request, RequestWithId);
    Ok((db.(requests := requests), RequestMapper.ToItemRequestDto(Some(saved))))
  }

  // ---------------------------------------------------------------------
  // Items answering requests

  /** `item.request.id IN :requestIds`; a `null` id matches nothing. */
  function ItemForRequests(requestIds: seq<Option<Id>>): Item -> bool {
    (i: Item) => RequestMapper.RequestIdOf(i).Some? && RequestMapper.RequestIdOf(i) in requestIds
  }

  /** The items answering the request with id `key`; none for `null`. */
  function AnswerTo(key: Option<Id>): Item -> bool {
    (i: Item) => key.Some? && RequestMapper.RequestIdOf(i) == key
  }

  /** The items answering one request, in table order. */
  function ItemsAnswering(db: Db, key: Option<Id>): (r: seq<Item>)
    ensures forall i :: i in r <==> i in db.items.rows.Values && key.Some? && RequestMapper.RequestIdOf(i) == key
  {
    Filter(Scan(db.items), AnswerTo(key))
  }

  /** `getItemsByRequestIds`: the items answering the listed requests,
      grouped by request id; each listed request's group is exactly its
      items and no group is empty. */
  function ItemsByRequestIds(db: Db, requestIds: seq<Option<Id>>): (r: map<Option<Id>, seq<Item>>)
    ensures forall k :: k in r ==> k in requestIds && k.Some? && |r[k]| > 0
    ensures forall k :: k in requestIds ==> Lookup(r, k) == ItemsAnswering(db, k)
  {
    var r := GroupBy(Filter(Scan(db.items), ItemForRequests(requestIds)), RequestMapper.RequestIdOf);
    ItemGroups(db, requestIds);
    r
  }

  /** The grouping of `getItemsByRequestIds` meets its description. */
  lemma ItemGroups(db: Db, requestIds: seq<Option<Id>>)
    ensures var r := GroupBy(Filter(Scan(db.items), ItemForRequests(requestIds)), RequestMapper.RequestIdOf);
      (forall k :: k in r ==> k in requestIds && k.Some? && |r[k]| > 0)
      && (forall k :: k in requestIds ==> Lookup(r, k) == ItemsAnswering(db, k))
  {
    var r := GroupBy(Filter(Scan(db.items), ItemForRequests(requestIds)), RequestMapper.RequestIdOf);
    var found := Filter(Scan(db.items), ItemForRequests(requestIds));
    forall k | k in requestIds
      ensures Lookup(r, k) == ItemsAnswering(db, k)
    {
      ItemGroupAt(db, requestIds, k);
    }
    forall k | k in r
      ensures k in requestIds && k.Some?
    {
      var group := Filter(found, KeyIs(RequestMapper.RequestIdOf, k));
      assert Lookup(r, k) == group;
      assert group[0] in group;
    }
  }

  /** The group of one listed request is the items answering it. */
  lemma ItemGroupAt(db: Db, requestIds: seq<Option<Id>>, k: Option<Id>)
    requires k in requestIds
    ensures Filter(Filter(Scan(db.items), ItemForRequests(requestIds)), KeyIs(RequestMapper.RequestIdOf, k))
      == ItemsAnswering(db, k)
  {
    var all := Scan(db.items);
    var p, q := ItemForRequests(requestIds), KeyIs(RequestMapper.RequestIdOf, k);
    FilterFilter(all, p, q);
    forall i: Item
      ensures Both(p, q)(i) == AnswerTo(k)(i)
    {
      assert Both(p, q)(i) == (p(i) && q(i));
      assert q(i) == (RequestMapper.RequestIdOf(i) == k);
    }
    FilterAgree(all, Both(p, q), AnswerTo(k));
  }

  // ---------------------------------------------------------------------
  // Reading requests

  /** The id of the user who made the request. */
  function RequesterId(q: ItemRequest): Option<Id> {
    if q.requester.Some? then q.requester.value.id else None
  }

  /** `requester.id = :id` when `own`, `requester.id <> :id` otherwise; a
      `null` on either side matches nothing, as in SQL. */
  predicate ByRequester(q: ItemRequest, requesterId: Option<Id>, own: bool) {
    RequesterId(q).Some? && requesterId.Some? && (RequesterId(q) == requesterId) == own
  }

  /** The sort key of `SORT_CREATE_DATE_ASC`; `create` always sets the
      creation time. */
  function CreatedKey(q: ItemRequest): int {
    q.created.GetOr(0)
  }

  /** The condition of the two request queries, as a filter. */
  function RequestBy(requesterId: Option<Id>, own: bool): ItemRequest -> bool {
    (q: ItemRequest) => ByRequester(q, requesterId, own)
  }

  /** `all` is the whole result of a request query before paging: each
      matching stored request as often as it is stored, oldest first. */
  predicate InCreationOrder(t: Table<ItemRequest>, requesterId: Option<Id>, own: bool, all: seq<ItemRequest>) {
    && SortedBy(all, CreatedKey)
    && multiset(all) == multiset(Filter(Scan(t), RequestBy(requesterId, own)))
  }

  /** `findAllByRequesterId` (`own`) and `findAllByRequesterIdNot`: one
      page of the matching requests, oldest first.  The page is the window
      of `p` over the whole result sorted by creation time; requests
      created at the same time may come in either order. */
  function FindByRequester(t: Table<ItemRequest>, requesterId: Option<Id>, own: bool, p: PageRequest)
    : (r: seq<ItemRequest>)
    ensures |r| <= p.size
    ensures SortedBy(r, CreatedKey)
    ensures forall q :: q in r ==> q in t.rows.Values && ByRequester(q, requesterId, own)
    ensures exists all :: InCreationOrder(t, requesterId, own, all) && r == Slice(all, p)
    ensures var n := |Filter(Scan(t), RequestBy(requesterId, own))|;
      |r| == if Offset(p) >= n then 0 else if n - Offset(p) < p.size then n - Offset(p) else p.size
  {
    var matching := Filter(Scan(t), RequestBy(requesterId, own));
    var sorted := SortBy(matching, CreatedKey);
    assert InCreationOrder(t, requesterId, own, sorted);
    SameElements(sorted, matching);
    SliceKeepsOrder(sorted, p, CreatedKey);
    var r := Slice(sorted, p);
    assert |sorted| == |matching|;
    assert |r| == if Offset(p) >= |sorted| then 0 else if |sorted| - Offset(p) < p.size then |sorted| - Offset(p) else p.size;
    r
  }

  /** A page of a sorted list is sorted and holds elements of the list. */
  lemma SliceKeepsOrder<T>(xs: seq<T>, p: PageRequest, key: T -> int)
    requires SortedBy(xs, key)
    ensures SortedBy(Slice(xs, p), key)
    ensures forall x :: x in Slice(xs, p) ==> x in xs
  {
    var r := Slice(xs, p);
    forall i, j | 0 <= i < j < |r|
      ensures key(r[i]) <= key(r[j])
    {
      assert r[i] == xs[Offset(p) + i] && r[j] == xs[Offset(p) + j];
    }
    forall x | x in r
      ensures x in xs
    {
      var i :| 0 <= i < |r| && r[i] == x;
      assert xs[Offset(p) + i] == x;
    }
  }

  /** A request as a reply: its id, description and creation time, and the
      items answering it. */
  function RequestView(db: Db, q: ItemRequest): ItemRequestDto {
    RequestMapper.ToItemRequestDto(Some(q)).(items := Some(ItemMapper.ToItemsDto(Some(ItemsAnswering(db, q.id)))))
  }

  /** The replies for a list of requests, in the same order. */
  function Views(db: Db, qs: seq<ItemRequest>): (r: seq<ItemRequestDto>)
    ensures |r| == |qs|
    ensures forall k :: 0 <= k < |qs| ==> r[k] == RequestView(db, qs[k])
  {
    Map(qs, (q: ItemRequest) => RequestView(db, q))
  }

  /** `getAllByRequesterId` (`own`) and `getAllOtherUsers`: NotFound for an
      unknown user before any query; otherwise one page of the user's own
      requests, or of everybody else's, oldest first, each with the items
      answering it. */
  function ListRequests(db: Db, requesterId: Id, own: bool, from: int, size: int): (r: Result<seq<ItemRequestDto>>)
    requires from >= 0 && size >= 1
    ensures requesterId !in db.users.rows ==> r == Err(NotFound)
    ensures r.Ok? <==> requesterId in db.users.rows
    ensures r.Ok? ==>
      var page := FindByRequester(db.requests, db.users.rows[requesterId].id, own,
                                  PageSettings(from, size, SortCreateDateAsc));
      && |r.value| == |page| <= size
      && forall k :: 0 <= k < |page| ==> r.value[k] == RequestView(db, page[k])
  {
    var requester :- FindUser(db, requesterId);
    var pageable := PageSettings(from, size, SortCreateDateAsc);
    var requests := FindByRequester(db.requests, requester.id, own, pageable);
    var requestIds := Map(requests, (q: ItemRequest) => q.id);
    var groups := ItemsByRequestIds(db, requestIds);
    var r := RequestMapper.ToItemRequestDtoList(requests, groups);
    assert forall k :: 0 <= k < |requests| ==> r[k] == RequestView(db, requests[k]) by {
      forall k | 0 <= k < |requests|
        ensures r[k] == RequestView(db, requests[k])
      {
        assert requestIds[k] == requests[k].id;
        assert Lookup(groups, requests[k].id) == ItemsAnswering(db, requests[k].id);
      }
    }
    Ok(r)
  }

  /** `getAllByRequesterId`: only the caller's own requests. */
  function GetAllByRequesterId(db: Db, requesterId: Id, from: int, size: int): (r: Result<seq<ItemRequestDto>>)
    requires from >= 0 && size >= 1
    ensures r.Ok? <==> requesterId in db.users.rows
    ensures r.Ok? ==> |r.value| <= size
    ensures r.Ok? ==> forall k :: 0 <= k < |r.value| ==> exists q ::
      q in db.requests.rows.Values && RequesterId(q) == db.users.rows[requesterId].id && r.value[k] == RequestView(db, q)
    ensures r.Ok? ==> exists all ::
      && InCreationOrder(db.requests, db.users.rows[requesterId].id, true, all)
      && r.value == Views(db, Slice(all, PageSettings(from, size, SortCreateDateAsc)))
  {
    var r := ListRequests(db, requesterId, true, from, size);
    ListedRequests(db, requesterId, true, from, size);
    ListingIsWindow(db, requesterId, true, from, size);
    r
  }

  /** `getAllOtherUsers`: only requests of other users. */
  function GetAllOtherUsers(db: Db, requesterId: Id, from: int, size: int): (r: Result<seq<ItemRequestDto>>)
    requires from >= 0 && size >= 1
    ensures r.Ok? <==> requesterId in db.users.rows
    ensures r.Ok? ==> |r.value| <= size
    ensures r.Ok? ==> forall k :: 0 <= k < |r.value| ==> exists q ::
      && q in db.requests.rows.Values && RequesterId(q).Some?
      && RequesterId(q) != db.users.rows[requesterId].id && r.value[k] == RequestView(db, q)
    ensures r.Ok? ==> exists all ::
      && InCreationOrder(db.requests, db.users.rows[requesterId].id, false, all)
      && r.value == Views(db, Slice(all, PageSettings(from, size, SortCreateDateAsc)))
  {
    var r := ListRequests(db, requesterId, false, from, size);
    ListedRequests(db, requesterId, false, from, size);
    ListingIsWindow(db, requesterId, false, from, size);
    r
  }

  /** A listing is the page, at `from / size`, of all the matching
      requests in creation order, each shown with its items. */
  lemma ListingIsWindow(db: Db, requesterId: Id, own: bool, from: int, size: int)
    requires from >= 0 && size >= 1
    ensures var r := ListRequests(db, requesterId, own, from, size);
      r.Ok? ==> exists all ::
        && InCreationOrder(db.requests, db.users.rows[requesterId].id, own, all)
        && r.value == Views(db, Slice(all, PageSettings(from, size, SortCreateDateAsc)))
  {
    var r := ListRequests(db, requesterId, own, from, size);
    if r.Ok? {
      var p := PageSettings(from, size, SortCreateDateAsc);
      var id := db.users.rows[requesterId].id;
      var page := FindByRequester(db.requests, id, own, p);
      var all :| InCreationOrder(db.requests, id, own, all) && page == Slice(all, p);
      assert r.value == Views(db, page);
    }
  }

  /** Every listed request is a stored request of the right requesters. */
  lemma ListedRequests(db: Db, requesterId: Id, own: bool, from: int, size: int)
    requires from >= 0 && size >= 1
    ensures var r := ListRequests(db, requesterId, own, from, size);
      r.Ok? ==> forall k :: 0 <= k < |r.value| ==> exists q ::
        && q in db.requests.rows.Values && ByRequester(q, db.users.rows[requesterId].id, own)
        && r.value[k] == RequestView(db, q)
  {
    var r := ListRequests(db, requesterId, own, from, size);
    if r.Ok? {
      var page := FindByRequester(db.requests, db.users.rows[requesterId].id, own,
                                  PageSettings(from, size, SortCreateDateAsc));
      forall k | 0 <= k < |r.value|
        ensures exists q ::
          && q in db.requests.rows.Values && ByRequester(q, db.users.rows[requesterId].id, own)
          && r.value[k] == RequestView(db, q)
      {
        assert page[k] in page;
      }
    }
  }

  /** `get`: NotFound for an unknown user, then for an unknown request;
      otherwise the request with exactly the items answering it. */
  function GetRequest(db: Db, requestId: Id, requesterId: Id): (r: Result<ItemRequestDto>)
    ensures requesterId !in db.users.rows ==> r == Err(NotFound)
    ensures requesterId in db.users.rows && requestId !in db.requests.rows ==> r == Err(NotFound)
    ensures r.Ok? <==> requesterId in db.users.rows && requestId in db.requests.rows
    ensures r.Ok? ==>
      var q := db.requests.rows[requestId];
      && r.value.(items := None) == RequestMapper.ToItemRequestDto(Some(q))
      && r.value.items.Some?
      && (q.id == Some(requestId) ==> r.value == RequestView(db, q))
  {
    var _ :- FindUser(db, requesterId);
    var request :- FindRequest(db, requestId);
    var dto := RequestMapper.ToItemRequestDto(Some(request));
    var groups := ItemsByRequestIds(db, [Some(requestId)]);
    var items := GroupAt(groups, request.id);
    assert request.id == Some(requestId) ==> ItemMapper.ToItemsDto(items) == ItemMapper.ToItemsDto(Some(ItemsAnswering(db, request.id)));
    Ok(dto.(items := Some(ItemMapper.ToItemsDto(items))))
  }
}

=== FILE: seqs.dfy ===
/** The stream operations the services use on lists: filter, map, sort by
    a key and group by a key.  Each is given an independent description
    in its contract. */
module Seqs {
  import opened Wrappers

  /** `stream().filter(p).collect(toList())`: keeps the elements satisfying
      `p`, in their original order. */
  function Filter<T(==,!new)>(xs: seq<T>, p: T -> bool): (r: seq<T>)
    ensures |r| <= |xs|
    ensures forall x :: x in r <==> x in xs && p(x)
    ensures forall i :: 0 <= i < |r| ==> p(r[i])
  {
    if |xs| == 0 then []
    else (if p(xs[0]) then [xs[0]] else []) + Filter(xs[1..], p)
  }

  /** `stream().map(f).collect(toList())`: one result per element, same order. */
  function Map<A, B>(xs: seq<A>, f: A -> B): (r: seq<B>)
    ensures |r| == |xs|
    ensures forall i :: 0 <= i < |xs| ==> r[i] == f(xs[i])
  {
    if |xs| == 0 then [] else [f(xs[0])] + Map(xs[1..], f)
  }

  /** The conjunction of two predicates. */
  function Both<T>(p: T -> bool, q: T -> bool): T -> bool {
    x => p(x) && q(x)
  }

  /** Filtering twice is filtering once by both predicates. */
  lemma {:induction false} FilterFilter<T(!new)>(xs: seq<T>, p: T -> bool, q: T -> bool)
    ensures Filter(Filter(xs, p), q) == Filter(xs, Both(p, q))
  {
    if |xs| > 0 {
      FilterFilter(xs[1..], p, q);
      var head := if p(xs[0]) then [xs[0]] else [];
      assert Filter(xs, p) == head + Filter(xs[1..], p);
      FilterAppend(head, Filter(xs[1..], p), q);
    }
  }

  /** Filtering distributes over concatenation. */
  lemma {:induction false} FilterAppend<T(!new)>(a: seq<T>, b: seq<T>, p: T -> bool)
    ensures Filter(a + b, p) == Filter(a, p) + Filter(b, p)
  {
    if |a| > 0 {
      FilterAppend(a[1..], b, p);
      var head := if p(a[0]) then [a[0]] else [];
      assert (a + b)[0] == a[0];
      assert (a + b)[1..] == a[1..] + b;
      assert Filter(a + b, p) == head + Filter(a[1..] + b, p);
      assert Filter(a, p) == head + Filter(a[1..], p);
      AppendAssoc(head, Filter(a[1..], p), Filter(b, p));
    } else {
      assert a + b == b;
    }
  }

  /** Predicates that agree on the elements filter alike. */
  lemma {:induction false} FilterAgree<T(!new)>(xs: seq<T>, p: T -> bool, q: T -> bool)
    requires forall x :: x in xs ==> p(x) == q(x)
    ensures Filter(xs, p) == Filter(xs, q)
  {
    if |xs| > 0 {
      assert forall x :: x in xs[1..] ==> x in xs;
      FilterAgree(xs[1..], p, q);
    }
  }

  /** `map.get(k)`: the value under `k`, or `null`. */
  function GroupAt<K, V>(m: map<K, V>, k: K): (r: Option<V>)
    ensures r.Some? <==> k in m
    ensures r.Some? ==> r.value == m[k]
  {
    if k in m then Some(m[k]) else None
  }

  /** `xs` is in ascending order of `key`. */
  predicate SortedBy<T>(xs: seq<T>, key: T -> int) {
    forall i, j :: 0 <= i < j < |xs| ==> key(xs[i]) <= key(xs[j])
  }

  /** Inserts `x` into the sorted `xs` before the first element whose key is
      not smaller. */
  function Insert<T(==)>(x: T, xs: seq<T>, key: T -> int): (r: seq<T>)
    requires SortedBy(xs, key)
    ensures |r| == |xs| + 1
    ensures r[0] == x || (|xs| > 0 && r[0] == xs[0])
    ensures SortedBy(r, key)
    ensures multiset(r) == multiset(xs) + multiset{x}
  {
    if |xs| == 0 then [x]
    else if key(x) <= key(xs[0]) then [x] + xs
    else
      var rest := Insert(x, xs[1..], key);
      assert xs == [xs[0]] + xs[1..];
      assert key(xs[0]) <= key(rest[0]);
      [xs[0]] + rest
  }

  /** Sorting by an integer key, as the repositories' `Sort` does: the
      result is ordered and is a permutation of the input. */
  function SortBy<T(==)>(xs: seq<T>, key: T -> int): (r: seq<T>)
    ensures SortedBy(r, key)
    ensures multiset(r) == multiset(xs)
    ensures |r| == |xs|
  {
    if |xs| == 0 then []
    else
      assert xs == [xs[0]] + xs[1..];
      Insert(xs[0], SortBy(xs[1..], key), key)
  }

  /** Membership survives a permutation. */
  lemma SameElements<T>(a: seq<T>, b: seq<T>)
    requires multiset(a) == multiset(b)
    ensures forall x :: x in a <==> x in b
  {
    forall x
      ensures x in a <==> x in b
    {
      assert x in a <==> x in multiset(a);
      assert x in b <==> x in multiset(b);
    }
  }

  /** No element of a sorted list has a smaller key than its first one. */
  lemma FirstIsLeast<T>(xs: seq<T>, key: T -> int)
    requires SortedBy(xs, key)
    ensures |xs| > 0 ==> forall x :: x in xs ==> key(xs[0]) <= key(x)
  {
    forall x | x in xs
      ensures key(xs[0]) <= key(x)
    {
      var j :| 0 <= j < |xs| && xs[j] == x;
      if j > 0 {
        assert key(xs[0]) <= key(xs[j]);
      }
    }
  }

  /** `list.isEmpty() ? null : list.get(0)`. */
  function First<T>(xs: seq<T>): (r: Option<T>)
    ensures r.None? <==> |xs| == 0
    ensures r.Some? ==> r.value == xs[0]
  {
    if |xs| == 0 then None else Some(xs[0])
  }

  /** The predicate "the key of this element is `k`". */
  function KeyIs<T, K(==)>(key: T -> K, k: K): T -> bool {
    x => key(x) == k
  }

  /** The group stored under `k`, or the empty list when there is none
      (the Java code's `get` returning `null`). */
  function Lookup<K, V>(m: map<K, seq<V>>, k: K): seq<V> {
    if k in m then m[k] else []
  }

  /** One step of the grouping loop: fetch the list under `key(x)` (a new
      one when absent), append `x`, put it back. */
  function AddTo<T, K(==)>(m: map<K, seq<T>>, key: T -> K, x: T): map<K, seq<T>> {
    m[key(x) := Lookup(m, key(x)) + [x]]
  }

  /** The grouping loop run over `xs`, starting from the groups `m`. */
  function GroupInto<T(==,!new), K(==,!new)>(m: map<K, seq<T>>, xs: seq<T>, key: T -> K): (r: map<K, seq<T>>)
    ensures forall k :: Lookup(r, k) == Lookup(m, k) + Filter(xs, KeyIs(key, k))
    ensures forall k :: k in r ==> k in m || |Filter(xs, KeyIs(key, k))| > 0
    decreases |xs|
  {
    if |xs| == 0 then m
    else
      var r := GroupInto(AddTo(m, key, xs[0]), xs[1..], key);
      GroupStep(m, xs, key, r);
      GroupKeysStep(m, xs, key, r);
      r
  }

  /** One step of the grouping loop, for the groups' contents: grouping the
      rest of the list on top of `AddTo(m, key, xs[0])` gives what grouping
      the whole list on top of `m` gives. */
  lemma GroupStep<T(!new), K>(m: map<K, seq<T>>, xs: seq<T>, key: T -> K, r: map<K, seq<T>>)
    requires |xs| > 0
    requires forall k :: Lookup(r, k) == Lookup(AddTo(m, key, xs[0]), k) + Filter(xs[1..], KeyIs(key, k))
    ensures forall k :: Lookup(r, k) == Lookup(m, k) + Filter(xs, KeyIs(key, k))
  {
    forall k
      ensures Lookup(r, k) == Lookup(m, k) + Filter(xs, KeyIs(key, k))
    {
      GroupStepKey(m, xs, key, r, k);
    }
  }

  /** `GroupStep` for the group of a single key `k`. */
  lemma GroupStepKey<T(!new), K>(m: map<K, seq<T>>, xs: seq<T>, key: T -> K, r: map<K, seq<T>>, k: K)
    requires |xs| > 0
    requires Lookup(r, k) == Lookup(AddTo(m, key, xs[0]), k) + Filter(xs[1..], KeyIs(key, k))
    ensures Lookup(r, k) == Lookup(m, k) + Filter(xs, KeyIs(key, k))
  {
    GroupStepAt(m, xs, key, k);
    AppendAssoc(Lookup(m, k), if key(xs[0]) == k then [xs[0]] else [], Filter(xs[1..], KeyIs(key, k)));
  }

  /** Concatenation is associative. */
  lemma AppendAssoc<T>(a: seq<T>, b: seq<T>, c: seq<T>)
    ensures (a + b) + c == a + (b + c)
  {
  }

  /** One step of the grouping loop, for the groups' keys. */
  lemma GroupKeysStep<T(!new), K>(m: map<K, seq<T>>, xs: seq<T>, key: T -> K, r: map<K, seq<T>>)
    requires |xs| > 0
    requires forall k :: k in r ==> k in AddTo(m, key, xs[0]) || |Filter(xs[1..], KeyIs(key, k))| > 0
    ensures forall k :: k in r ==> k in m || |Filter(xs, KeyIs(key, k))| > 0
  {
    forall k | k in r
      ensures k in m || |Filter(xs, KeyIs(key, k))| > 0
    {
      GroupStepAt(m, xs, key, k);
    }
  }

  /** The step of `GroupStep` for a single key `k`. */
  lemma GroupStepAt<T(!new), K>(m: map<K, seq<T>>, xs: seq<T>, key: T -> K, k: K)
    requires |xs| > 0
    ensures Filter(xs, KeyIs(key, k))
      == (if key(xs[0]) == k then [xs[0]] else []) + Filter(xs[1..], KeyIs(key, k))
    ensures Lookup(AddTo(m, key, xs[0]), k)
      == Lookup(m, k) + (if key(xs[0]) == k then [xs[0]] else [])
    ensures k in AddTo(m, key, xs[0]) <==> k in m || key(xs[0]) == k
  {
  }

  /** Grouping a list by a key, as `getBookingsByItemIds`,
      `getCommentsByItemIds` and `getItemsByRequestIds` do: every group is
      the order-preserving filter of the list on its key, no group is
      empty, and every element's key has a group. */
  function GroupBy<T(==,!new), K(==,!new)>(xs: seq<T>, key: T -> K): (r: map<K, seq<T>>)
    ensures forall k :: Lookup(r, k) == Filter(xs, KeyIs(key, k))
    ensures forall k :: k in r ==> |r[k]| > 0
    ensures forall i :: 0 <= i < |xs| ==> key(xs[i]) in r
  {
    var r := GroupInto(map[], xs, key);
    assert forall k :: k in r ==> |r[k]| > 0 by {
      forall k | k in r
        ensures |r[k]| > 0
      {
        assert Lookup(r, k) == Filter(xs, KeyIs(key, k));
      }
    }
    assert forall i :: 0 <= i < |xs| ==> key(xs[i]) in r by {
      forall i | 0 <= i < |xs|
        ensures key(xs[i]) in r
      {
        var k := key(xs[i]);
        assert KeyIs(key, k)(xs[i]);
        assert xs[i] in Filter(xs, KeyIs(key, k));
        assert Lookup(r, k) == Filter(xs, KeyIs(key, k));
      }
    }
    r
  }
}

=== FILE: storage.dfy ===
/** A store of records keyed by id, with the counter that issues new ids.
    It models both the map-backed `InMemoryDataStorage` of the older
    application and the tables behind the JPA repositories, whose identity
    columns hand out ids the same way. */
module Storage {
  import opened Wrappers

  /** Record ids (`Long`). */
  type Id = int

  /** The records under their ids, and the id the next `create` assigns. */
  datatype Store<T> = Store(rows: map<Id, T>, nextId: Id)

  /** The first id a fresh store hands out. */
  const FirstId: Id := 1

  /** A store nobody has written to yet. */
  function Empty<T>(): (s: Store<T>)
    ensures s.rows == map[] && s.nextId == FirstId
    ensures IdsBelowCounter(s)
  {
    Store(map[], FirstId)
  }

  /** Every stored id was issued by the counter: it lies in
      [FirstId, nextId). */
  predicate IdsBelowCounter<T>(s: Store<T>) {
    && FirstId <= s.nextId
    && forall k :: k in s.rows ==> FirstId <= k < s.nextId
  }

  /** A database table: only the counter ever chose its keys. */
  type Table<T> = s: Store<T> | IdsBelowCounter(s) witness Store(map[], FirstId)

  /** `get(id)`: the record stored under `id`, or `null`. */
  function Get<T>(s: Store<T>, id: Id): (r: Option<T>)
    ensures r.Some? <==> id in s.rows
    ensures r.Some? ==> r.value == s.rows[id]
  {
    if id in s.rows then Some(s.rows[id]) else None
  }

  /** `create(data)`: stamps `data` with the counter's id, stores it under
      that id and advances the counter.  `withId` is the record's `setId`.
      Returns the new store and the stored record. */
  function Create<T>(s: Store<T>, data: T, withId: (T, Id) -> T): (r: (Store<T>, T))
    ensures r.1 == withId(data, s.nextId)
    ensures Get(r.0, s.nextId) == Some(r.1)
    ensures forall k :: k != s.nextId ==> Get(r.0, k) == Get(s, k)
    ensures r.0.nextId == s.nextId + 1
    ensures IdsBelowCounter(s) ==> IdsBelowCounter(r.0) && s.nextId !in s.rows
  {
    var stored := withId(data, s.nextId);
    (Store(s.rows[s.nextId := stored], s.nextId + 1), stored)
  }

  /** `update(data)`: puts `data` under its own id, whether or not that id
      was present, and returns what is stored there afterwards. */
  function Update<T>(s: Store<T>, data: T, idOf: T -> Id): (r: (Store<T>, T))
    ensures r.1 == data
    ensures Get(r.0, idOf(data)) == Some(data)
    ensures forall k :: k != idOf(data) ==> Get(r.0, k) == Get(s, k)
    ensures r.0.nextId == s.nextId
  {
    var s' := s.(rows := s.rows[idOf(data) := data]);
    (s', s'.rows[idOf(data)])
  }

  /** Overwrites the record under an existing key, as a managed JPA entity
      is written back to its own row. */
  function Put<T>(s: Store<T>, id: Id, data: T): (r: Store<T>)
    requires id in s.rows
    ensures Get(r, id) == Some(data)
    ensures forall k :: k != id ==> Get(r, k) == Get(s, k)
    ensures r.nextId == s.nextId
    ensures r.rows.Keys == s.rows.Keys
  {
    s.(rows := s.rows[id := data])
  }

  /** `delete(id)`: removes that key, if present; the counter stays. */
  function Delete<T>(s: Store<T>, id: Id): (r: Store<T>)
    ensures Get(r, id) == None
    ensures forall k :: k != id ==> Get(r, k) == Get(s, k)
    ensures r.nextId == s.nextId
    ensures IdsBelowCounter(s) ==> IdsBelowCounter(r)
  {
    s.(rows := s.rows - {id})
  }

  /** An update under an id the counter already issued keeps every stored
      id below the counter; the services only update records they have
      just looked up. */
  lemma UpdateIssuedKeepsIds<T>(s: Store<T>, data: T, idOf: T -> Id)
    requires IdsBelowCounter(s)
    requires FirstId <= idOf(data) < s.nextId
    ensures IdsBelowCounter(Update(s, data, idOf).0)
  {
  }

  /** A record written by `create` is what `get` returns for its id. */
  lemma GetAfterCreate<T>(s: Store<T>, data: T, withId: (T, Id) -> T)
    ensures Get(Create(s, data, withId).0, s.nextId) == Some(withId(data, s.nextId))
  {
  }

  // ---------------------------------------------------------------------
  // Enumeration

  /** The least element of a non-empty set of ids. */
  function MinOf(ks: set<Id>): (m: Id)
    requires ks != {}
    ensures m in ks
    ensures forall k :: k in ks ==> m <= k
  {
    HasMin(ks);
    var m :| m in ks && forall k :: k in ks ==> m <= k;
    m
  }

  /** A non-empty finite set of ids has a least element. */
  lemma {:induction false} HasMin(ks: set<Id>)
    requires ks != {}
    ensures exists m :: m in ks && forall k :: k in ks ==> m <= k
    decreases |ks|
  {
    var x := PickOne(ks);
    if ks == {x} {
      assert forall k :: k in ks ==> x <= k;
    } else {
      var rest := ks - {x};
      HasMin(rest);
      var y :| y in rest && forall k :: k in rest ==> y <= k;
      var m := if x < y then x else y;
      forall k | k in ks
        ensures m <= k
      {
        if k != x {
          assert k in rest;
        }
      }
      assert m in ks;
    }
  }

  /** Some element of a non-empty set. */
  lemma PickOne(ks: set<Id>) returns (x: Id)
    requires ks != {}
    ensures x in ks
  {
    if forall y :: y !in ks {
      assert false;  // `ks` is not empty
    }
    x :| x in ks;
  }

  /** The ids of `ks` in ascending order, each once. */
  function SortedKeys(ks: set<Id>): (r: seq<Id>)
    ensures forall k :: k in r <==> k in ks
    ensures |r| == |ks|
    ensures forall i, j :: 0 <= i < j < |r| ==> r[i] < r[j]
    decreases |ks|
  {
    if ks == {} then []
    else
      var m := MinOf(ks);
      [m] + SortedKeys(ks - {m})
  }

  /** The records stored under `ks`, in that order. */
  function RowsAt<T>(rows: map<Id, T>, ks: seq<Id>): (r: seq<T>)
    requires forall i :: 0 <= i < |ks| ==> ks[i] in rows
    ensures |r| == |ks|
    ensures forall i :: 0 <= i < |r| ==> r[i] == rows[ks[i]]
  {
    if |ks| == 0 then [] else [rows[ks[0]]] + RowsAt(rows, ks[1..])
  }

  /** All stored records, in ascending id order: `getAll` and the
      repositories' unordered `findAll…` queries. */
  function Scan<T(==,!new)>(s: Store<T>): (r: seq<T>)
    ensures |r| == |s.rows|
    ensures forall x :: x in r <==> x in s.rows.Values
  {
    var ks := SortedKeys(s.rows.Keys);
    var r := RowsAt(s.rows, ks);
    ScanHolds(s.rows, ks, r);
    r
  }

  /** `RowsAt` over all the keys yields exactly the stored values. */
  lemma ScanHolds<T>(rows: map<Id, T>, ks: seq<Id>, r: seq<T>)
    requires forall k :: k in ks <==> k in rows
    requires |r| == |ks|
    requires forall i :: 0 <= i < |r| ==> ks[i] in rows && r[i] == rows[ks[i]]
    ensures forall x :: x in r <==> x in rows.Values
  {
    forall x | x in rows.Values
      ensures x in r
    {
      if forall k :: k in rows ==> rows[k] != x {
        assert false;  // `x` is one of the values
      }
      var k :| k in rows && rows[k] == x;
      var i :| 0 <= i < |ks| && ks[i] == k;
      assert r[i] == x;
    }
    forall x | x in r
      ensures x in rows.Values
    {
      var i :| 0 <= i < |r| && r[i] == x;
      assert rows[ks[i]] == x;
    }
  }

  // ---------------------------------------------------------------------
  // Id history

  /** The store operations that change which ids exist. */
  datatype Op<T> = CreateOp(data: T) | DeleteOp(id: Id)

  /** Runs `ops` in order; returns the final store and the ids the creates
      assigned, in order. */
  function Run<T>(s: Store<T>, ops: seq<Op<T>>, withId: (T, Id) -> T): (r: (Store<T>, seq<Id>))
    ensures r.0.nextId == s.nextId + |r.1|
    decreases |ops|
  {
    if |ops| == 0 then (s, [])
    else match ops[0]
      case CreateOp(data) =>
        var rest := Run(Create(s, data, withId).0, ops[1..], withId);
        (rest.0, [s.nextId] + rest.1)
      case DeleteOp(id) =>
        Run(Delete(s, id), ops[1..], withId)
  }

  /** Ids are never reused: along any history of creates and deletes the
      assigned ids strictly increase, none of them was in the store before
      the history began, and the final counter lies above all of them. */
  lemma {:induction false} IdsNeverReused<T>(s: Store<T>, ops: seq<Op<T>>, withId: (T, Id) -> T)
    requires IdsBelowCounter(s)
    ensures var (t, ids) := Run(s, ops, withId);
      && IdsBelowCounter(t)
      && (forall i, j :: 0 <= i < j < |ids| ==> ids[i] < ids[j])
      && (forall i :: 0 <= i < |ids| ==> s.nextId <= ids[i] < t.nextId && ids[i] !in s.rows)
    decreases |ops|
  {
    if |ops| > 0 {
      match ops[0]
      case CreateOp(data) =>
        var s' := Create(s, data, withId).0;
        IdsNeverReused(s', ops[1..], withId);
      case DeleteOp(id) =>
        IdsNeverReused(Delete(s, id), ops[1..], withId);
    }
  }
}

=== FILE: text.dfy ===
/** The string tests the services apply to user input: blankness, case
    folding and the two substring searches (SQL `LIKE '%text%'` and the
    regular expression `(.*)text(.*)`).  Characters are treated as ASCII. */
module Text {

  /** `Character.toLowerCase` on the ASCII letters; other characters are
      kept. */
  function LowerChar(c: char): (r: char)
    ensures 'A' <= c <= 'Z' ==> r as int == c as int + 32
    ensures !('A' <= c <= 'Z') ==> r == c
    ensures !('A' <= r <= 'Z')
  {
    if 'A' <= c <= 'Z' then (c as int + 32) as char else c
  }

  /** `toLowerCase(Locale.ROOT)`, character by character. */
  function Lower(s: string): (r: string)
    ensures |r| == |s|
    ensures forall i :: 0 <= i < |s| ==> r[i] == LowerChar(s[i])
  {
    if |s| == 0 then [] else [LowerChar(s[0])] + Lower(s[1..])
  }

  /** Folding case twice changes nothing more. */
  lemma LowerIdempotent(s: string)
    ensures Lower(Lower(s)) == Lower(s)
  {
    assert |Lower(Lower(s))| == |Lower(s)|;
  }

  /** `Character.isWhitespace`: the ASCII controls U+0009 to U+000D and
      U+001C to U+001F, and the Unicode space, line and paragraph
      separators other than the no-break spaces U+00A0, U+2007 and
      U+202F. */
  predicate IsWhitespace(c: char) {
    || c == ' ' || ('\t' <= c <= '\r') || ('\U{001C}' <= c <= '\U{001F}')
    || c == '\U{1680}' || ('\U{2000}' <= c <= '\U{2006}') || ('\U{2008}' <= c <= '\U{200A}')
    || c == '\U{2028}' || c == '\U{2029}' || c == '\U{205F}' || c == '\U{3000}'
  }

  /** `String.isBlank`: empty or only whitespace. */
  predicate IsBlank(s: string) {
    forall i :: 0 <= i < |s| ==> IsWhitespace(s[i])
  }

  /** `t` occurs in `s` at position `i`. */
  predicate OccursAt(s: string, t: string, i: int) {
    0 <= i <= |s| - |t| && s[i..i + |t|] == t
  }

  /** `s LIKE '%t%'` for a `t` without wildcards: `t` occurs somewhere. */
  predicate Contains(s: string, t: string) {
    exists i | 0 <= i <= |s| - |t| :: OccursAt(s, t, i)
  }

  /** The line terminators `.` of a regular expression does not match. */
  predicate IsLineBreak(c: char) {
    c == '\n' || c == '\r' || c == '\U{0085}' || c == '\U{2028}' || c == '\U{2029}'
  }

  /** `s.matches("(.*)" + t + "(.*)")` for a `t` without metacharacters:
      `t` occurs at a place where neither the text before it nor the text
      after it holds a line terminator. */
  predicate MatchesAround(s: string, t: string) {
    exists i | 0 <= i <= |s| - |t| ::
      && OccursAt(s, t, i)
      && (forall j | 0 <= j < i :: !IsLineBreak(s[j]))
      && (forall j | i + |t| <= j < |s| :: !IsLineBreak(s[j]))
  }

  /** On a single line the regular expression and `LIKE` agree; a match of
      the regular expression is always a `LIKE` match. */
  lemma MatchAroundIsContains(s: string, t: string)
    ensures MatchesAround(s, t) ==> Contains(s, t)
    ensures (forall j | 0 <= j < |s| :: !IsLineBreak(s[j])) ==> (MatchesAround(s, t) <==> Contains(s, t))
  {
  }

  /** The empty text occurs in every string. */
  lemma EmptyOccursEverywhere(s: string)
    ensures Contains(s, "")
  {
    assert OccursAt(s, "", 0);
  }
}

=== FILE: user_mapper.dfy ===
/** Conversions between users and their transfer objects. */
module UserMapper {
  import opened Wrappers
  import opened Domain
  import opened Dto
  import Seqs

  /** `toUserDto`: the user's id, name and email; `ToUser` undoes it. */
  function ToUserDto(u: User): (d: UserDto)
    ensures d.id == u.id && d.name == u.name && d.email == u.email
    ensures ToUser(d) == u
  {
    UserDto(u.id, u.name, u.email)
  }

  /** `toUser`: the DTO's id, name and email. */
  function ToUser(d: UserDto): (u: User)
    ensures u.id == d.id && u.name == d.name && u.email == d.email
  {
    User(d.id, d.name, d.email)
  }

  /** `toUserDtoList`: empty for `null`; otherwise one DTO per user, in order. */
  function ToUserDtoList(users: Option<seq<User>>): (r: seq<UserDto>)
    ensures users.None? ==> r == []
    ensures users.Some? ==> |r| == |users.value|
    ensures users.Some? ==> forall i :: 0 <= i < |r| ==> r[i] == ToUserDto(users.value[i])
  {
    match users
    case None => []
    case Some(list) => Seqs.Map(list, ToUserDto)
  }

  /** The two conversions are inverse to each other. */
  lemma UserRoundTrips(u: User, d: UserDto)
    ensures ToUser(ToUserDto(u)) == u
    ensures ToUserDto(ToUser(d)) == d
  {
  }
}

=== FILE: user_service.dfy ===
/** The user service of the server application, on the users table. */
module UserService {
  import opened Wrappers
  import opened Storage
  import opened Domain
  import opened Dto
  import UserMapper

  /** `create`: the user described by the request is saved under a fresh
      id; the reply shows the stored user. */
  function CreateUser(db: Db, d: UserDto): (r: (Db, UserDto))
    ensures var stored := User(Some(db.users.nextId), d.name, d.email);
      && r.0.users.rows == db.users.rows[db.users.nextId := stored]
      && r.0.users.nextId == db.users.nextId + 1
      && r.0 == db.(users := r.0.users)
      && r.1 == d.(id := Some(db.users.nextId))
  {
    var (users, saved) := Storage.Create(db.users, UserMapper.ToUser(d), UserWithId);
    (db.(users := users), UserMapper.ToUserDto(saved))
  }

  /** `get`: the stored user, or NotFound. */
  function GetUser(db: Db, id: Id): (r: Result<UserDto>)
    ensures id !in db.users.rows ==> r == Err(NotFound)
    ensures r.Ok? <==> id in db.users.rows
    ensures r.Ok? ==> UserMapper.ToUser(r.value) == db.users.rows[id]
  {
    var u :- FindUser(db, id);
    Ok(UserMapper.ToUserDto(u))
  }

  /** `getAll`: one DTO per stored user, each stored user shown. */
  function GetAll(db: Db): (r: seq<UserDto>)
    ensures |r| == |db.users.rows|
    ensures forall u :: u in db.users.rows.Values ==> UserMapper.ToUserDto(u) in r
    ensures forall k :: 0 <= k < |r| ==> UserMapper.ToUser(r[k]) in db.users.rows.Values
  {
    var users := Scan(db.users);
    DtosOfUsers(users);
    UserMapper.ToUserDtoList(Some(users))
  }

  /** The DTO list of a list of users shows each of them, and each DTO is
      of one of them. */
  lemma DtosOfUsers(users: seq<User>)
    ensures var r := UserMapper.ToUserDtoList(Some(users));
      && (forall u :: u in users ==> UserMapper.ToUserDto(u) in r)
      && (forall k :: 0 <= k < |r| ==> UserMapper.ToUser(r[k]) in users)
  {
    var r := UserMapper.ToUserDtoList(Some(users));
    forall u | u in users
      ensures UserMapper.ToUserDto(u) in r
    {
      var k :| 0 <= k < |users| && users[k] == u;
      assert r[k] == UserMapper.ToUserDto(u);
    }
    forall k | 0 <= k < |r|
      ensures UserMapper.ToUser(r[k]) in users
    {
      assert users[k] in users;
    }
  }

  /** The changes `update` makes to the managed user, as written: the name
      when the request has one, the email when the request has one that
      differs from the current one. */
  function Merge(user: User, d: UserDto): (r: User)
    ensures r.id == user.id
    ensures r.name == (if d.name.Some? then d.name else user.name)
    ensures d.email.None? || d.email == user.email ==> r.email == user.email
    ensures d.email.Some? && d.email != user.email ==> r.email == d.email
  {
    var u := if d.name.Some? then user.(name := d.name) else user;
    if d.email.Some? && d.email != user.email then u.(email := d.email) else u
  }

  /** The comparison with the current email changes nothing: every field
      the request sets is overwritten and every field it leaves `null`
      stays. */
  lemma MergeOverwritesSetFields(user: User, d: UserDto)
    ensures Merge(user, d).email == (if d.email.Some? then d.email else user.email)
  {
  }

  /** `update`: NotFound for an unknown id, with nothing changed; otherwise
      the stored user is merged with the request in place, keeping its id,
      and the reply shows the result. */
  function Update(db: Db, id: Id, d: UserDto): (r: Result<(Db, UserDto)>)
    ensures id !in db.users.rows ==> r == Err(NotFound)
    ensures r.Ok? <==> id in db.users.rows
    ensures r.Ok? ==>
      var merged := Merge(db.users.rows[id], d);
      && Get(r.value.0.users, id) == Some(merged)
      && merged.id == db.users.rows[id].id
      && (forall k :: k != id ==> Get(r.value.0.users, k) == Get(db.users, k))
      && r.value.0 == db.(users := r.value.0.users)
      && r.value.0.users.nextId == db.users.nextId
      && r.value.1 == UserMapper.ToUserDto(merged)
  {
    var user :- FindUser(db, id);
    var merged := Merge(user, d);
    Ok((db.(users := Put(db.users, id, merged)), UserMapper.ToUserDto(merged)))
  }

  /** `delete`: `deleteById` fails with EmptyResult for an absent id and
      otherwise removes the user; nothing else changes. */
  function DeleteUser(db: Db, id: Id): (r: Result<Db>)
    ensures r.Err? <==> id !in db.users.rows
    ensures r.Err? ==> r.error == EmptyResult
    ensures r.Ok? ==> id !in r.value.users.rows
    ensures r.Ok? ==> forall k :: k != id ==> Get(r.value.users, k) == Get(db.users, k)
    ensures r.Ok? ==> r.value == db.(users := r.value.users) && r.value.users.nextId == db.users.nextId
  {
    if id !in db.users.rows then Err(EmptyResult)
    else Ok(db.(users := Storage.Delete(db.users, id)))
  }
}

=== FILE: wrappers.dfy ===
/** Option and Result values, and the error tags the services throw.
    Each Java exception class of the core becomes one `Error` constructor. */
module Wrappers {

  /** A Java reference that may be `null`. */
  datatype Option<+T> = None | Some(value: T) {

    /** The value, or `default` for `null`. */
    function GetOr(default: T): T {
      match this
      case Some(v) => v
      case None => default
    }
  }

  /** The exceptions the services raise, used only as error tags. */
  datatype Error =
    | NotFound          // DataNotFoundException
    | Forbidden         // ForbiddenException
    | Validation        // ValidationException
    | UnknownState      // UnknownStateException
    | BadRequest        // BadRequestException
    | DataAlreadyExist  // DataAlreadyExistException
    | NullId            // a repository's `findById(null)`: IllegalArgumentException
    | EmptyResult       // a repository's `deleteById` of an absent id: EmptyResultDataAccessException

  /** The outcome of a service call: a value, or the exception it throws. */
  datatype Result<+T> = Ok(value: T) | Err(error: Error) {

    predicate IsFailure() {
      Err?
    }

    function PropagateFailure<U>(): Result<U>
      requires Err?
    {
      Err(error)
    }

    function Extract(): T
      requires Ok?
    {
      value
    }
  }
}
